=== FILE: README.md ===
# ServiceLocator: the striped singleton map and its locator facade, in Dafny

This project models the core of the Swift `ServiceLocator` library in Dafny. It has two parts:

- **`SingletonMap`** is a thread-safe, lazily initialised cache. It keys singletons by `Hashable` keys and stripes them over a fixed array of buckets. Each bucket has its own lock.
- **`ServiceLocator` / `ChildServiceLocator`** is the facade built on top. Each locator owns one map keyed by accessor name. Its `singleton(key:factory:)` forwards to `getValue`. A child locator also holds a fixed `parent`.

Modules, in dependency order:

| file | module | contents |
|---|---|---|
| `wrappers.dfy` | `Wrappers` | `Option`, `Result` |
| `swift_int.dfy` | `SwiftInt` | 64-bit `Int`, trapping `abs`, truncating `%`, runtime traps as values |
| `singleton_map.dfy` | `SingletonMaps` | `Item`, buckets, `init`, `getBucket`, the lock-held steps of `getValue`, and `getValue` itself with nested (reentrant) requests |
| `singleton_map_facts.dfy` | `SingletonMapFacts` | single-caller consequences: memoization, run-once, reentrancy on one bucket, self-request |
| `interleaving.dfy` | `Interleaving` | many callers: any interleaving of lock-held steps; the factory runs at most once per key and all callers see one value |
| `service_locator.dfy` | `ServiceLocators` | a world of locators (roots and children), accessors, `singleton`, the hooks |
| `service_locator_facts.dfy` | `ServiceLocatorFacts` | `singleton` equals `getValue` on the own map; composites hold the exact instances; locators are independent; parents never change |

How the model reads the Swift code:

- **Locks.** Each region of `getValue` that runs with the bucket lock held is one atomic step:
  - `Acquire` is one pass of the `while(true)` loop.
  - `Finish` is the write after the factory returns.
  - A map value is the bucket contents the next holder of the lock sees.
- **Waiting.** `lock.wait()` on a key that is `.initializing` is the outcome `Parked(key)`. For a single caller, parking means waiting for some other caller. In `Interleaving` a parked caller simply probes again later.
- **Traces.** `Interleaving` replays a trace of probes and publishes. A trace is *admissible* when each publish finds its key under construction. `OwnerRunsAreAdmissible` derives this from the code's rule: only the caller whose probe claimed a key stores a value for it.
- **Factories.** A factory is a tree:
  - it makes nested requests to the same map (or, at the locator level, accessor reads on any locator), in order;
  - then it builds its value from their results.
  This is exactly what makes reentrancy observable.
- **Hash.** `hashValue` is a pure function `K -> Int64` stored with the map and fixed for the map's lifetime. Swift seeds it per process, so the model leaves it as a parameter.
- **Traps.** Swift traps become `Failure(Trap)` / `Trapped(trap)`:
  - `precondition(bucketCount > 0)` gives `PreconditionFailure`;
  - `abs(Int.min)` in `getBucket` gives `ArithmeticOverflow`.
- **Locators.** They are the entries of a `World`, indexed by creation order. A child's parent index is always smaller than its own.
- **Accessors.** An accessor is a name plus a `Service`, the factory passed to `singleton`. The name is the default key (`#function`).

Two things the code does not do. It has no recovery path for a failing factory: a Swift factory `() -> T` cannot throw, and a trap ends the process. It has no cycle detection either: a factory whose first request is its own key parks behind itself forever (`SingletonMapFacts.SelfRequestParks`).

## Model

| member | source | states |
|---|---|---|
| SwiftInt.Abs | Sources/ServiceLocator/SingletonMap.swift:125 | `abs` traps exactly on `Int.min`; otherwise it returns a non-negative value equal to the argument or its negation |
| SwiftInt.RemOfNonNegative | Sources/ServiceLocator/SingletonMap.swift:125 | Swift's truncating `%` of a non-negative dividend by a positive count is a valid bucket index and agrees with the mathematical residue |
| SwiftInt.Rem | Sources/ServiceLocator/SingletonMap.swift:125 | Swift's `%` on `Int`: together with the truncating quotient it satisfies `a == (a / b) * b + a % b`; it is smaller in magnitude than the divisor and never has the sign opposite to the dividend |
| SwiftInt.RemOfNegative | Sources/ServiceLocator/SingletonMap.swift:125 | on a negative dividend and a positive count, Swift's `%` lies in `(-count, 0]`. It can therefore be negative, which is why `getBucket` takes `abs` first |
| SingletonMaps.BucketIndex | Sources/ServiceLocator/SingletonMap.swift:123-127 | `abs(hash) % bucketCount` succeeds exactly when the hash is not `Int.min`. Then it is below the count and equals the magnitude of the hash modulo the count. Otherwise it traps with an overflow |
| SingletonMaps.Index | Sources/ServiceLocator/SingletonMap.swift:124-126 | the bucket chosen for a key is always an index into `buckets` |
| SingletonMaps.DefaultBucketCount | Sources/ServiceLocator/SingletonMap.swift:3-9 | the default bucket count is positive: 8 when built for iOS, 64 for every other platform |
| SingletonMaps.BucketCountFor | Sources/ServiceLocator/SingletonMap.swift:58-59 | a missing count defaults to 8 on iOS and 64 on every other platform; a given positive count is used as is; a count of zero or less fails the precondition |
| SingletonMaps.ItemOf | Sources/ServiceLocator/SingletonMap.swift:80 | the state of a key is its entry in the bucket its hash selects when it is stored there, and `.none` otherwise |
| SingletonMaps.Init | Sources/ServiceLocator/SingletonMap.swift:57-69 | fails (the precondition) exactly when the count does not resolve; otherwise the map has exactly that many buckets, all empty, keeps the hash, satisfies the representation invariant, and every key is unrequested |
| SingletonMaps.Put | Sources/ServiceLocator/SingletonMap.swift:86 | writing `bucket.contents[key]` sets that key only. Every other key reads as before, every other bucket is unchanged, the bucket's key set gains exactly the key, and the invariant is kept |
| SingletonMaps.Acquire | Sources/ServiceLocator/SingletonMap.swift:79-116 | one lock-held pass of the loop. It traps exactly when the bucket index does. An unrequested key becomes `.initializing` and is claimed; a key under construction means wait, with no change; a constructed key is a hit with its value, with no change. Nothing but the caller's key changes, and other buckets are untouched |
| SingletonMaps.Finish | Sources/ServiceLocator/SingletonMap.swift:96-103 | after the factory, the key holds the constructed value and no other key or bucket changes |
| SingletonMaps.GetValue | Sources/ServiceLocator/SingletonMap.swift:73-119 | full contract, given below the table |
| SingletonMaps.UnfinishedClaimStaysInitializing | Sources/ServiceLocator/SingletonMap.swift:82-98 | a request that claims a key but whose factory's nested requests park or trap leaves the key `.initializing`: the code has no path that resets it |
| SingletonMaps.RunDeps | Sources/ServiceLocator/SingletonMap.swift:88-93 | the factory's nested requests, made while the caller's key is under construction and the lock is released. If all return, there is one value per request, each the value the map now holds for its key; the started factories are recorded without duplicates. A trap is always the bucket-index overflow |
| SingletonMapFacts.HitIgnoresFactory | Sources/ServiceLocator/SingletonMap.swift:113-116 | a constructed key returns its value whatever factory is passed: no factory runs and the map is unchanged |
| SingletonMapFacts.SecondRequestReturnsSameValue | Tests/ServiceLocatorTests/SingletonMapTests.swift:83-93 | after a request returned `v`, any later request for the key, with any factory, returns the identical `v` and changes nothing |
| SingletonMapFacts.FirstRequestRunsFactoryOnce | Tests/ServiceLocatorTests/SingletonMapTests.swift:6-17 | with a factory that makes no nested requests, the first request for an unrequested key runs its factory exactly once and returns its result. The only change is that key's entry in its own bucket, set to the value |
| SingletonMapFacts.NestedRequestDoesNotBlock | Tests/ServiceLocatorTests/SingletonMapTests.swift:95-108 | a factory for key `a` that requests a different key `b` completes, whatever buckets they share. Both are stored, `a`'s value is built from `b`'s, and the factories start in the order `a`, `b` |
| SingletonMapFacts.SingleBucketSharesIndex | Tests/ServiceLocatorTests/SingletonMapTests.swift:96-102 | with one bucket, every placeable key falls into bucket 0, so the nested request above shares the caller's bucket |
| SingletonMapFacts.OtherKeyProceedsWhileInitializing | Sources/ServiceLocator/SingletonMap.swift:86-90 | while key `a` is under construction, a request for `a` parks without change. A request for another unrequested key, with a factory that makes no nested requests, still completes and leaves `a` under construction |
| SingletonMapFacts.ComposedFromDependencies | Sources/ServiceLocator/SingletonMap.swift:92-106 | a constructed value is the factory's build applied to exactly the values the map holds for the keys it requested, in order |
| SingletonMapFacts.SelfRequestParks | Sources/ServiceLocator/SingletonMap.swift:107-112 | a factory whose first request is its own key parks behind its own marker. The key stays `.initializing` and only its factory was started |
| Interleaving.Step | Sources/ServiceLocator/SingletonMap.swift:79-103 | a lock-held step changes only its own key. A probe marks an unrequested key as under construction and otherwise changes nothing; a publish stores the value. The invariant, the bucket array and the hash are kept |
| Interleaving.Answer | Sources/ServiceLocator/SingletonMap.swift:80-116 | a probe claims exactly when the key is unrequested, waits exactly when it is under construction, and hits exactly when it is constructed, with the stored value |
| Interleaving.Replay | Sources/ServiceLocator/SingletonMap.swift:79-117 | over any admissible interleaving of many callers, every key only advances (unrequested → under construction → constructed), and a constructed key keeps its value |
| Interleaving.AtMostOneClaim | Sources/ServiceLocator/SingletonMap.swift:82-93 | in any interleaving, at most one caller is told to run a key's factory, and none if the key was already requested |
| Interleaving.HitsAreTheFinalValue | Sources/ServiceLocator/SingletonMap.swift:113-116 | every value handed to any caller for a key is the value the map holds for that key at the end |
| Interleaving.AllHitsAgree | Tests/ServiceLocatorTests/SingletonMapTests.swift:89-92 | any two values handed to callers that found a key constructed are identical |
| Interleaving.PublishedIsFinal | Sources/ServiceLocator/SingletonMap.swift:96-106 | the value the claiming caller stores and returns is the value the key holds at the end of any admissible trace: nothing overwrites it |
| Interleaving.ClaimerAndHitsAgree | Tests/ServiceLocatorTests/SingletonMapTests.swift:83-93 | all callers of one key receive the identical instance: every caller handed a stored value gets exactly the value the claiming caller published and returned, and no second value is ever published for the key |
| Interleaving.HitOnlyAfterOneClaim | Tests/ServiceLocatorTests/SingletonMapTests.swift:19-81 | for a key that starts unrequested, a caller gets a value only if exactly one caller claimed it: callers of a key under construction block until its factory's value is published |
| Interleaving.HitWasPublished | Sources/ServiceLocator/SingletonMap.swift:107-116 | for a key not constructed when the trace begins, every value handed to a waiting or later caller was published for that key by a step of the trace |
| Interleaving.OwnerRunsAreAdmissible | Sources/ServiceLocator/SingletonMap.swift:82-106 | the trace condition the lemmas above assume follows from the code's rule that a key is stored only by the caller whose probe found it unrequested and marked it under construction: if every publish in a caller-tagged trace is by the key's current owner, the trace without callers is admissible |
| ServiceLocators.Attach | Sources/ServiceLocator/ServiceLocator.swift:25 | creating a locator appends one locator with a fresh, empty map of the default bucket count and the given parent. Every existing locator is unchanged |
| ServiceLocators.NewRoot | Sources/ServiceLocator/ServiceLocator.swift:23-25 | a root locator has no parent and every key is unrequested; existing locators are unchanged |
| ServiceLocators.NewChild | Sources/ServiceLocator/ServiceLocator.swift:82-89 | a child locator's `parent` is the locator given, which was created before it; its own map is empty |
| ServiceLocators.Singleton | Sources/ServiceLocator/ServiceLocator.swift:57-59 | the request returns a constructed value unchanged and parks on a key under construction. Every trap, its own or a nested read's, is `getBucket`'s overflow on `abs(Int.min)`. A returned value is stored under the key in this locator's map. No locator's parent or bucket array changes, and maps only fill in unrequested keys |
| ServiceLocators.ReadAll | Sources/ServiceLocator/ServiceLocator.swift:14-21 | a factory's accessor reads, on any locator. If all return, there is one value per read, each the value that locator now holds for that accessor |
| ServiceLocators.Read | Sources/ServiceLocator/ServiceLocator.swift:41-59 | an accessor is `singleton` under its own name; a returned value is stored under that name |
| ServiceLocators.Activate | Sources/ServiceLocator/ServiceLocator.swift:29-32 | the base `activate()` hook leaves every locator as it was |
| ServiceLocators.Deactivate | Sources/ServiceLocator/ServiceLocator.swift:34-37 | the base `deactivate()` hook leaves every locator as it was |
| ServiceLocatorFacts.SingletonForwardsToOwnMap | Sources/ServiceLocator/ServiceLocator.swift:57-59 | for a factory that reads only its own locator, `singleton` returns exactly what `getValue` on the locator's map returns. The world afterwards differs only in that map, which is the map `getValue` leaves |
| ServiceLocatorFacts.LocatorsAreIndependent | Sources/ServiceLocator/ServiceLocator.swift:24-25 | each locator has its own storage: a request on one locator leaves every other locator that its factory does not read (directly or through nested reads) exactly as it was |
| ServiceLocatorFacts.EntriesChangeOnlyThroughReads | Sources/ServiceLocator/ServiceLocator.swift:74-89 | a request changes no entry of any locator except the requested one and those its factory reads, directly or nested: a child's singletons never reach its parent, whose map gains only the entries of its own accessors that the child's factory reads (`parent.x`) |
| ServiceLocatorFacts.ReadsLeaveUntouched | Sources/ServiceLocator/ServiceLocator.swift:24-25 | a factory's reads leave every locator they do not touch unchanged |
| ServiceLocatorFacts.SelfContainedTouchesOnlyItself | Sources/ServiceLocator/ServiceLocator.swift:57-59 | a factory that reads only its own locator touches no other locator |
| ServiceLocatorFacts.ReadTwiceSameInstance | Tests/ServiceLocatorTests/LocatorTests.swift:30-37 | reading an accessor again after it returned gives the identical instance and changes nothing |
| ServiceLocatorFacts.CompositeReferencesReadInstances | Sources/ServiceLocator/ServiceLocator.swift:14-21 | a composite singleton is built from exactly the instances its accessor reads return: re-reading any of them, on any locator, gives the value it was built from |
| ServiceLocatorFacts.CompositeHoldsSameInstance | Tests/ServiceLocatorTests/LocatorTests.swift:39-46 | a composite reading one accessor of its own locator holds the identical instance that accessor returns afterwards |
| ServiceLocatorFacts.ChildCompositeHoldsParentInstance | Tests/ServiceLocatorTests/LocatorTests.swift:48-55 | a child's composite reading `parent.x` holds the identical instance the parent returns for `x`, and the child's parent is unchanged |
| ServiceLocatorFacts.Perform | Sources/ServiceLocator/ServiceLocator.swift:82-89 | any one operation (request, hook, new root, new child) keeps every locator, its parent, its bucket array and its constructed singletons |
| ServiceLocatorFacts.PerformAll | Sources/ServiceLocator/ServiceLocator.swift:83-84 | over any sequence of operations, no locator disappears, `parent` stays the one given at creation, bucket arrays are fixed, and a constructed singleton keeps its instance forever |
| ServiceLocatorFacts.HooksAreUnobservable | Sources/ServiceLocator/ServiceLocator.swift:27-37 | calling `activate()` or `deactivate()` on any locator changes the outcome of no later request |

`SingletonMaps.GetValue` is `getValue` for one caller. Its contract:

- The map keeps its invariant and shape.
- Keys only change from unrequested, and `invoked` lists exactly the changed keys, once each.
- A trapping bucket index traps with no change.
- A key under construction parks with no change.
- A constructed key returns its value with no change.
- An unrequested key starts its own factory first.
- Every trap is `getBucket`'s overflow on `abs(Int.min)`, its own or a nested request's.
- A returned value is what the map now holds for the key, and every change made is unrequested → constructed.

## Left out

- Locking itself (`NSCondition` `lock`/`unlock`/`wait`/`broadcast`) is not modelled as code. Each lock-held region is an atomic step, and `Interleaving` composes those steps. Wake-up after `broadcast` is a later probe by the parked caller; fairness and liveness of the condition variable are not modelled.
- Lock names and the `#available` check in `Bucket.init` (SingletonMap.swift:36-40) are left out: they have no observable effect on the map.
- Keys compare as character sequences (`string` equality) and, for the generic map, by Dafny's structural `==`. Swift `String` equality is Unicode canonical equivalence, and `hashValue` agrees with it, so `"caf\u{E9}"` and `"cafe\u{301}"` are one key in Swift but two keys here. A user-defined `Hashable` `==` is likewise not modelled.
- `hashValue` is an abstract pure function `K -> Int64`, because Swift's hashing is seeded per process.
- The `as! T` downcast in `getValue` is left out. All values share one type `V`, so a type mismatch cannot be expressed.
- `Constants.defaultBucketCount` is a `static var`, but no code mutates it. The model treats it as the constant 8 (iOS) or 64 (elsewhere), with the platform as a parameter.
- `Int` is modelled as 64 bits wide. Platforms where Swift's `Int` is 32 bits (for example 32-bit watchOS) would move the `abs` trap to `Int32.min`; the model does not cover them.
- A factory failing is not modelled: the Swift factory type cannot throw. A nested request whose `getBucket` traps is modelled: the call ends `Trapped` and the claimed key stays `.initializing` (`SingletonMaps.UnfinishedClaimStaysInitializing`). In Swift that trap ends the process, so nothing observes the stuck key.
- Cycle detection: there is none in the code. A self-request is the `Parked` outcome (`SingletonMapFacts.SelfRequestParks`).
- SingletonMaps.GetValue: a caller that parks does not resume later in this single-caller model. Resumption after another caller publishes is covered by `Interleaving`.
- ServiceLocators.Singleton: likewise, a parked request ends with `Parked` and does not resume.
- The external scope manager that calls `activate()`/`deactivate()`, and subclass overrides of those hooks, are outside the library.
- `TestItem` and the XCTest timing and expectation machinery are test scaffolding. Only the properties the tests check are stated.

=== FILE: interleaving.dfy ===
/**
 * Many callers sharing one map. Each lock-held region of `getValue` is an atomic
 * event; any interleaving of the events of any number of callers is a trace. The
 * only obligation the protocol places on a trace is that a value is published
 * for a key only by the caller that claimed it, so only while the key is
 * `Initializing`. Over every such trace: a key is claimed at most once (the
 * factory runs at most once per key), items only move forward, and every caller
 * that gets a value for a key gets the same one.
 */
module Interleaving {
  import opened SingletonMaps

  /** One atomic step of some caller. */
  datatype Event<K, V> =
    | Probe(key: K)             // one pass of the `getValue` loop with the bucket lock held
    | Publish(key: K, value: V) // store the value the claiming caller's factory built

  /** The forward order on item states: unrequested, then under construction, then constructed. */
  ghost predicate Advances<V>(a: Item<V>, b: Item<V>) {
    a == b || a.Empty? || (a.Initializing? && b.Value?)
  }

  /** `Advances` is transitive, so it holds over a whole trace once it holds step by step. */
  lemma AdvancesTransitive<V>(a: Item<V>, b: Item<V>, c: Item<V>)
    requires Advances(a, b) && Advances(b, c)
    ensures Advances(a, c)
  {
  }

  /** The map after one event. */
  function Step<K(==,!new), V>(m: SingletonMap<K, V>, e: Event<K, V>): (r: SingletonMap<K, V>)
    requires Valid(m) && Index(m, e.key).Success?
    ensures Valid(r) && SameShape(m, r)
    ensures forall x :: x != e.key ==> ItemOf(r, x) == ItemOf(m, x)
    ensures e.Probe? ==> Advances(ItemOf(m, e.key), ItemOf(r, e.key))
    ensures e.Probe? && ItemOf(m, e.key).Empty? ==> ItemOf(r, e.key) == Initializing
    ensures e.Probe? && !ItemOf(m, e.key).Empty? ==> r == m
    ensures e.Publish? ==> ItemOf(r, e.key) == Value(e.value)
  {
    match e
    case Probe(k) => Acquire(m, k).value.state
    case Publish(k, v) => Finish(m, k, v)
  }

  /** What a probe tells its caller. */
  function Answer<K(==,!new), V>(m: SingletonMap<K, V>, k: K): (c: Claim<V>)
    requires Valid(m) && Index(m, k).Success?
    ensures c.Claimed? <==> ItemOf(m, k).Empty?
    ensures c.MustWait? <==> ItemOf(m, k).Initializing?
    ensures c.Hit? <==> ItemOf(m, k).Value?
    ensures c.Hit? ==> ItemOf(m, k) == Value(c.value)
  {
    Acquire(m, k).value.claim
  }

  /**
   * The trace can happen: every key can be placed in a bucket, and a value is
   * published for a key only while it is `Initializing`.
   */
  ghost predicate Admissible<K(!new), V>(m: SingletonMap<K, V>, es: seq<Event<K, V>>)
    decreases |es|
  {
    && Valid(m)
    && (|es| > 0 ==>
          && Index(m, es[0].key).Success?
          && (es[0].Publish? ==> ItemOf(m, es[0].key).Initializing?)
          && Admissible(Step(m, es[0]), es[1..]))
  }

  /**
   * The map after a whole trace. The shape, the bucket count and the hash never
   * change; every item only advances; a constructed item keeps its value; and no
   * item returns to unrequested.
   */
  function Replay<K(==,!new), V>(m: SingletonMap<K, V>, es: seq<Event<K, V>>): (r: SingletonMap<K, V>)
    requires Admissible(m, es)
    ensures Valid(r) && SameShape(m, r)
    ensures forall x :: Advances(ItemOf(m, x), ItemOf(r, x))
    ensures forall x :: ItemOf(m, x).Value? ==> ItemOf(r, x) == ItemOf(m, x)
    decreases |es|
  {
    if |es| == 0 then m
    else
      var next := Step(m, es[0]);
      var r := Replay(next, es[1..]);
      StepAdvances(m, es[0]);
      forall x ensures Advances(ItemOf(m, x), ItemOf(r, x)) {
        AdvancesTransitive(ItemOf(m, x), ItemOf(next, x), ItemOf(r, x));
      }
      r
  }

  /** A single admissible event only advances items. */
  lemma StepAdvances<K(!new), V>(m: SingletonMap<K, V>, e: Event<K, V>)
    requires Valid(m) && Index(m, e.key).Success?
    requires e.Publish? ==> ItemOf(m, e.key).Initializing?
    ensures forall x :: Advances(ItemOf(m, x), ItemOf(Step(m, e), x))
    ensures forall x :: ItemOf(m, x).Value? ==> ItemOf(Step(m, e), x) == ItemOf(m, x)
  {
  }

  /** How many probes of `k` in the trace were told to run the factory. */
  function Claims<K(==,!new), V>(m: SingletonMap<K, V>, es: seq<Event<K, V>>, k: K): nat
    requires Admissible(m, es)
    decreases |es|
  {
    if |es| == 0 then 0
    else
      var here := if es[0] == Probe(k) && Answer(m, k).Claimed? then 1 else 0;
      here + Claims(Step(m, es[0]), es[1..], k)
  }

  /** The values the probes of `k` in the trace were handed, in order. */
  function Hits<K(==,!new), V>(m: SingletonMap<K, V>, es: seq<Event<K, V>>, k: K): seq<V>
    requires Admissible(m, es)
    decreases |es|
  {
    if |es| == 0 then []
    else
      var here := if es[0] == Probe(k) && Answer(m, k).Hit? then [Answer(m, k).value] else [];
      here + Hits(Step(m, es[0]), es[1..], k)
  }

  /**
   * At most one caller ever runs the factory for a key, and none does when the
   * key was already requested when the trace began.
   */
  lemma {:induction false} AtMostOneClaim<K(!new), V>(m: SingletonMap<K, V>, es: seq<Event<K, V>>, k: K)
    requires Admissible(m, es)
    ensures Claims(m, es, k) <= (if ItemOf(m, k).Empty? then 1 else 0)
    decreases |es|
  {
    if |es| > 0 {
      var next := Step(m, es[0]);
      AtMostOneClaim(next, es[1..], k);
      if es[0].key == k {
        assert !ItemOf(next, k).Empty?;
      }
    }
  }

  /**
   * Every value any probe of `k` is handed is the value the map holds for `k`
   * at the end of the trace; so all callers of `k` see one and the same value.
   */
  lemma {:induction false} HitsAreTheFinalValue<K(!new), V>(m: SingletonMap<K, V>, es: seq<Event<K, V>>, k: K)
    requires Admissible(m, es)
    ensures forall h :: h in Hits(m, es, k) ==> ItemOf(Replay(m, es), k) == Value(h)
    decreases |es|
  {
    if |es| > 0 {
      var next := Step(m, es[0]);
      HitsAreTheFinalValue(next, es[1..], k);
      assert Replay(m, es) == Replay(next, es[1..]);
      if es[0] == Probe(k) && Answer(m, k).Hit? {
        assert ItemOf(next, k) == ItemOf(m, k);
      }
    }
  }

  /** Any two values handed out for the same key are identical. */
  lemma AllHitsAgree<K(!new), V>(m: SingletonMap<K, V>, es: seq<Event<K, V>>, k: K)
    requires Admissible(m, es)
    ensures forall i, j :: 0 <= i < j < |Hits(m, es, k)| ==> Hits(m, es, k)[i] == Hits(m, es, k)[j]
  {
    HitsAreTheFinalValue(m, es, k);
    var hs := Hits(m, es, k);
    forall i, j | 0 <= i < j < |hs| ensures hs[i] == hs[j] {
      assert hs[i] in hs && hs[j] in hs;
    }
  }

  /**
   * When a key starts unrequested, a caller can be handed a value for it only
   * after exactly one caller was told to run its factory.
   */
  lemma {:induction false} HitOnlyAfterOneClaim<K(!new), V>(m: SingletonMap<K, V>, es: seq<Event<K, V>>, k: K)
    requires Admissible(m, es) && ItemOf(m, k).Empty? && |Hits(m, es, k)| > 0
    ensures Claims(m, es, k) == 1
    decreases |es|
  {
    AtMostOneClaim(m, es, k);
    var next := Step(m, es[0]);
    if es[0].key == k {
      assert es[0] == Probe(k);
      AtMostOneClaim(next, es[1..], k);
    } else {
      HitOnlyAfterOneClaim(next, es[1..], k);
    }
  }

  /**
   * The value a claiming caller publishes for `k` is the value the map holds for
   * `k` at the end of the trace: no later step overwrites it.
   */
  lemma {:induction false} PublishedIsFinal<K(!new), V>(m: SingletonMap<K, V>, es: seq<Event<K, V>>, k: K, v: V)
    requires Admissible(m, es) && Publish(k, v) in es
    ensures ItemOf(Replay(m, es), k) == Value(v)
    decreases |es|
  {
    var next := Step(m, es[0]);
    assert Replay(m, es) == Replay(next, es[1..]);
    if es[0] != Publish(k, v) {
      assert es == [es[0]] + es[1..];
      PublishedIsFinal(next, es[1..], k, v);
    }
  }

  /**
   * Every caller of `k` receives one and the same instance: the caller that ran
   * the factory returns the value it published, every other caller is handed
   * that same value, and no second value is ever published for `k`.
   */
  lemma ClaimerAndHitsAgree<K(!new), V>(m: SingletonMap<K, V>, es: seq<Event<K, V>>, k: K, v: V, v': V)
    requires Admissible(m, es) && Publish(k, v) in es
    ensures forall h :: h in Hits(m, es, k) ==> h == v
    ensures Publish(k, v') in es ==> v' == v
  {
    PublishedIsFinal(m, es, k, v);
    HitsAreTheFinalValue(m, es, k);
    if Publish(k, v') in es {
      PublishedIsFinal(m, es, k, v');
    }
  }

  /**
   * Every value handed to a caller of a key that was not constructed when the
   * trace began was published for that key by a step of the trace: callers wait
   * for the claiming caller's factory rather than inventing a value.
   */
  lemma {:induction false} HitWasPublished<K(!new), V>(m: SingletonMap<K, V>, es: seq<Event<K, V>>, k: K, h: V)
    requires Admissible(m, es) && !ItemOf(m, k).Value? && h in Hits(m, es, k)
    ensures Publish(k, h) in es
    decreases |es|
  {
    var next := Step(m, es[0]);
    assert es == [es[0]] + es[1..];
    assert h in Hits(next, es[1..], k);
    if ItemOf(next, k).Value? {
      assert es[0] == Publish(k, ItemOf(next, k).value);
      HitsAreTheFinalValue(next, es[1..], k);
    } else {
      HitWasPublished(next, es[1..], k, h);
    }
  }

  /**
   * A step as the code performs it: by a particular caller. A caller publishes
   * only a key its own probe claimed, and only once, since publishing ends its
   * factory run.
   */
  datatype CallerEvent<K, V> =
    | CallerProbe(caller: nat, key: K)
    | CallerPublish(caller: nat, key: K, value: V)

  /** The step without the caller. */
  function Erase<K, V>(e: CallerEvent<K, V>): (r: Event<K, V>)
    ensures r.key == e.key
    ensures r.Publish? <==> e.CallerPublish?
    ensures e.CallerPublish? ==> r.value == e.value
  {
    match e
    case CallerProbe(_, k) => Probe(k)
    case CallerPublish(_, k, v) => Publish(k, v)
  }

  function EraseAll<K, V>(es: seq<CallerEvent<K, V>>): (r: seq<Event<K, V>>)
    ensures |r| == |es| && forall i :: 0 <= i < |es| ==> r[i] == Erase(es[i])
  {
    seq(|es|, i requires 0 <= i < |es| => Erase(es[i]))
  }

  /** Which caller is running the factory of each key under construction. */
  ghost predicate Owned<K(!new), V>(m: SingletonMap<K, V>, owner: map<K, nat>)
    requires WellShaped(m)
  {
    forall k :: k in owner <==> ItemOf(m, k).Initializing?
  }

  /** The owners after a step: a claim makes the prober the owner, a publish ends the ownership. */
  function NextOwner<K(==,!new), V>(m: SingletonMap<K, V>, owner: map<K, nat>, e: CallerEvent<K, V>): map<K, nat>
    requires Valid(m) && Index(m, e.key).Success?
  {
    match e
    case CallerProbe(c, k) => if Answer(m, k).Claimed? then owner[k := c] else owner
    case CallerPublish(_, k, _) => owner - {k}
  }

  /** The trace follows the code's rule: every publish is by the caller that owns the key. */
  ghost predicate Runs<K(!new), V>(m: SingletonMap<K, V>, owner: map<K, nat>, es: seq<CallerEvent<K, V>>)
    decreases |es|
  {
    && Valid(m)
    && (|es| > 0 ==>
          && Index(m, es[0].key).Success?
          && (es[0].CallerPublish? ==> es[0].key in owner && owner[es[0].key] == es[0].caller)
          && Runs(Step(m, Erase(es[0])), NextOwner(m, owner, es[0]), es[1..]))
  }

  /**
   * The code's rule implies the trace condition the lemmas above assume: when
   * only the caller whose probe claimed a key publishes it, a publish always
   * finds the key under construction, so no constructed value is overwritten.
   */
  lemma {:induction false} OwnerRunsAreAdmissible<K(!new), V>(m: SingletonMap<K, V>, owner: map<K, nat>, es: seq<CallerEvent<K, V>>)
    requires Runs(m, owner, es) && Owned(m, owner)
    ensures Admissible(m, EraseAll(es))
    decreases |es|
  {
    if |es| > 0 {
      var e := es[0];
      var next := Step(m, Erase(e));
      var owner' := NextOwner(m, owner, e);
      forall x
        ensures x in owner' <==> ItemOf(next, x).Initializing?
      {
        if x != e.key {
          assert ItemOf(next, x) == ItemOf(m, x);
        }
      }
      OwnerRunsAreAdmissible(next, owner', es[1..]);
      assert EraseAll(es)[1..] == EraseAll(es[1..]);
    }
  }
}

=== FILE: service_locator.dfy ===
/**
 * The service-locator facade. Every locator owns one singleton map keyed by
 * accessor name, created with the locator; a child locator also holds its parent,
 * fixed at construction. A locator's accessor forwards to `singleton`, which
 * forwards to `getValue` on the locator's own map; the accessor's factory may
 * read accessors of the same locator or of other locators (a child reading
 * `parent.x`).
 *
 * Locators are objects; here all locators of a process form a `World`, and a
 * locator is its index in creation order.
 */
module ServiceLocators {
  import opened Wrappers
  import opened SwiftInt
  import opened SingletonMaps

  /** One locator: its own singletons, and its parent if it is a child locator. */
  datatype Locator<!V> = Locator(singletons: SingletonMap<string, V>, parent: Option<nat>)

  /** Every locator created so far, the string hash they share and the build platform. */
  datatype World<!V> = World(locators: seq<Locator<V>>, hash: string -> Int64, platform: Platform)

  /**
   * A computed property of a locator subclass: `singleton { ... }` under the
   * property's own name, which is the default key (`#function`).
   */
  datatype Accessor<!V> = Accessor(name: string, service: Service<V>)

  /** A singleton factory: the accessors it reads, in order, and how it builds its value from theirs. */
  datatype Service<!V> = Service(uses: seq<Use<V>>, build: seq<V> -> V)

  /** Reading `accessor` on the locator with index `locator` from inside a factory. */
  datatype Use<!V> = Use(locator: nat, accessor: Accessor<V>)

  /** A key of a particular locator's map. */
  datatype Slot = Slot(locator: nat, key: string)

  /** A world after a request, and how the request ended. */
  datatype Resolution<!V, R> = Resolution(world: World<V>, outcome: Outcome<Slot, R>)

  /**
   * Every locator's map is valid and uses the shared hash, and a parent was
   * created before its child.
   */
  ghost predicate WorldValid<V>(w: World<V>) {
    forall j :: 0 <= j < |w.locators| ==>
      && Valid(w.locators[j].singletons)
      && w.locators[j].singletons.hash == w.hash
      && (w.locators[j].parent.Some? ==> w.locators[j].parent.value < j)
  }

  /** The construction state of `key` in the map of locator `j`. */
  function ItemAt<V>(w: World<V>, j: nat, key: string): Item<V>
    requires j < |w.locators| && WellShaped(w.locators[j].singletons)
  {
    ItemOf(w.locators[j].singletons, key)
  }

  /**
   * `w'` follows `w` by singleton requests: the same locators with the same
   * parents and bucket arrays, each map having only filled in unrequested keys.
   */
  ghost predicate Evolves<V>(w: World<V>, w': World<V>)
    requires WorldValid(w) && WorldValid(w')
  {
    && |w'.locators| == |w.locators| && w'.hash == w.hash && w'.platform == w.platform
    && forall j :: 0 <= j < |w.locators| ==>
         && w'.locators[j].parent == w.locators[j].parent
         && SameShape(w.locators[j].singletons, w'.locators[j].singletons)
         && Grows(w.locators[j].singletons, w'.locators[j].singletons)
  }

  /** As `Evolves`, and every key changed went from unrequested straight to constructed. */
  ghost predicate Fills<V>(w: World<V>, w': World<V>)
    requires WorldValid(w) && WorldValid(w') && |w'.locators| == |w.locators|
  {
    forall j :: 0 <= j < |w.locators| ==> Settles(w.locators[j].singletons, w'.locators[j].singletons)
  }

  /** Every locator a service (and, transitively, every service it reads) refers to exists. */
  ghost predicate Scoped<V>(n: nat, s: Service<V>)
    decreases s
  {
    forall i :: 0 <= i < |s.uses| ==> s.uses[i].locator < n && Scoped(n, s.uses[i].accessor.service)
  }

  /** The world with locator `id`'s map replaced; nothing else changes. */
  function WithMap<V>(w: World<V>, id: nat, m: SingletonMap<string, V>): (r: World<V>)
    requires id < |w.locators|
    ensures |r.locators| == |w.locators| && r.hash == w.hash && r.platform == w.platform
    ensures r.locators[id] == w.locators[id].(singletons := m)
    ensures forall j :: 0 <= j < |w.locators| && j != id ==> r.locators[j] == w.locators[j]
    ensures WorldValid(w) && Valid(m) && m.hash == w.hash ==> WorldValid(r)
  {
    w.(locators := w.locators[id := w.locators[id].(singletons := m)])
  }

  /** Result of creating a locator: the new world and the new locator's index. */
  datatype Created<!V> = Created(world: World<V>, id: nat)

  /**
   * Creating a locator (`ServiceLocator()`, or `ChildServiceLocator(parent:)` when
   * `parent` is given) creates its own map with the default bucket count, empty;
   * every existing locator is untouched.
   */
  function Attach<V>(w: World<V>, parent: Option<nat>): (r: Created<V>)
    requires WorldValid(w)
    requires parent.Some? ==> parent.value < |w.locators|
    ensures WorldValid(r.world) && r.id == |w.locators| && |r.world.locators| == |w.locators| + 1
    ensures r.world.locators[..|w.locators|] == w.locators
    ensures r.world.hash == w.hash && r.world.platform == w.platform
    ensures r.world.locators[r.id].parent == parent
    ensures r.world.locators[r.id].singletons.bucketCount == DefaultBucketCount(w.platform) as int
    ensures forall key :: ItemAt(r.world, r.id, key) == Empty
  {
    var m := Init(None, w.platform, w.hash).value;
    var r := Created(w.(locators := w.locators + [Locator(m, parent)]), |w.locators|);
    assert forall j :: 0 <= j < |w.locators| ==> r.world.locators[j] == w.locators[j];
    r
  }

  /** `ServiceLocator()`: a root locator with no parent. */
  function NewRoot<V>(w: World<V>): (r: Created<V>)
    requires WorldValid(w)
    ensures r.id == |w.locators| && |r.world.locators| == |w.locators| + 1
    ensures WorldValid(r.world) && r.world.locators[..|w.locators|] == w.locators
    ensures r.world.locators[r.id].parent.None?
    ensures forall key :: ItemAt(r.world, r.id, key) == Empty
  {
    Attach(w, None)
  }

  /** `ChildServiceLocator(parent:)`: a new locator whose `parent` is the given one. */
  function NewChild<V>(w: World<V>, parent: nat): (r: Created<V>)
    requires WorldValid(w) && parent < |w.locators|
    ensures r.id == |w.locators| && |r.world.locators| == |w.locators| + 1
    ensures WorldValid(r.world) && r.world.locators[..|w.locators|] == w.locators
    ensures r.world.locators[r.id].parent == Some(parent) && parent < r.id
    ensures forall key :: ItemAt(r.world, r.id, key) == Empty
  {
    Attach(w, Some(parent))
  }

  /**
   * `singleton(key:factory:)` on locator `id`: `getValue` on that locator's own
   * map, where the factory's reads are requests to whichever locators they name.
   * A constructed key is returned without a change; a key under construction
   * parks; an unrequested key is claimed, the reads run, and the built value is
   * stored in locator `id`'s map and returned. No parent changes, and every map
   * only fills in unrequested keys.
   */
  function Singleton<V>(w: World<V>, id: nat, key: string, s: Service<V>): (r: Resolution<V, V>)
    requires WorldValid(w) && id < |w.locators| && Scoped(|w.locators|, s)
    ensures WorldValid(r.world) && Evolves(w, r.world)
    ensures r.outcome.Returned? ==> Fills(w, r.world) && ItemAt(r.world, id, key) == Value(r.outcome.value)
    ensures ItemAt(w, id, key).Value? ==> r == Resolution(w, Returned(ItemAt(w, id, key).value))
    ensures ItemAt(w, id, key).Initializing? ==> r == Resolution(w, Parked(Slot(id, key)))
    ensures Index(w.locators[id].singletons, key).Failure? ==> r == Resolution(w, Trapped(ArithmeticOverflow))
    ensures r.outcome.Trapped? ==> r.outcome.trap == ArithmeticOverflow
    decreases s, 1, 0
  {
    var m := w.locators[id].singletons;
    match Acquire(m, key)
    case Failure(e) => Resolution(w, Trapped(e))
    case Success(Acquired(m1, claim)) =>
      match claim
      case Hit(v) => Resolution(w, Returned(v))
      case MustWait => Resolution(w, Parked(Slot(id, key)))
      case Claimed =>
        var w1 := WithMap(w, id, m1);
        ClaimEvolves(w, w1, id, key);
        var deps := ReadAll(w1, s, 0, []);
        EvolvesTransitive(w, w1, deps.world);
        match deps.outcome
        case Returned(values) =>
          var v := s.build(values);
          var done := WithMap(deps.world, id, Finish(deps.world.locators[id].singletons, key, v));
          FinishFills(w, w1, deps.world, done, id, key, v);
          Resolution(done, Returned(v))
        case Parked(p) => Resolution(deps.world, Parked(p))
        case Trapped(t) => Resolution(deps.world, Trapped(t))
  }

  /**
   * The reads of `s` from the `i`-th on, in order; the first that does not
   * return ends the factory. `acc` holds the values of the earlier reads.
   */
  function ReadAll<V>(w: World<V>, s: Service<V>, i: nat, acc: seq<V>): (r: Resolution<V, seq<V>>)
    requires WorldValid(w) && Scoped(|w.locators|, s) && i <= |s.uses| && |acc| == i
    ensures WorldValid(r.world) && Evolves(w, r.world)
    ensures r.outcome.Returned? ==> Fills(w, r.world) && |r.outcome.value| == |s.uses| && r.outcome.value[..i] == acc
    ensures r.outcome.Returned? ==> forall j :: i <= j < |s.uses| ==>
      ItemAt(r.world, s.uses[j].locator, s.uses[j].accessor.name) == Value(r.outcome.value[j])
    ensures r.outcome.Trapped? ==> r.outcome.trap == ArithmeticOverflow
    decreases s, 0, |s.uses| - i
  {
    if i == |s.uses| then Resolution(w, Returned(acc))
    else
      var u := s.uses[i];
      var first := Singleton(w, u.locator, u.accessor.name, u.accessor.service);
      match first.outcome
      case Returned(v) =>
        var rest := ReadAll(first.world, s, i + 1, acc + [v]);
        EvolvesTransitive(w, first.world, rest.world);
        if rest.outcome.Returned? then
          ReadsKept(first.world, rest.world, s, i, v, acc, rest.outcome.value);
          Resolution(rest.world, rest.outcome)
        else
          Resolution(rest.world, rest.outcome)
      case Parked(p) => Resolution(first.world, Parked(p))
      case Trapped(t) => Resolution(first.world, Trapped(t))
  }

  /** Reading an accessor: `singleton` under the accessor's own name. */
  function Read<V>(w: World<V>, id: nat, a: Accessor<V>): (r: Resolution<V, V>)
    requires WorldValid(w) && id < |w.locators| && Scoped(|w.locators|, a.service)
    ensures WorldValid(r.world) && Evolves(w, r.world)
    ensures r.outcome.Returned? ==> ItemAt(r.world, id, a.name) == Value(r.outcome.value)
  {
    Singleton(w, id, a.name, a.service)
  }

  /** The `activate()` hook: does nothing to any locator. */
  function Activate<V>(w: World<V>, id: nat): (r: World<V>)
    requires id < |w.locators|
    ensures r == w
  {
    w
  }

  /** The `deactivate()` hook: does nothing to any locator. */
  function Deactivate<V>(w: World<V>, id: nat): (r: World<V>)
    requires id < |w.locators|
    ensures r == w
  {
    w
  }

  lemma EvolvesTransitive<V>(w1: World<V>, w2: World<V>, w3: World<V>)
    requires WorldValid(w1) && WorldValid(w2) && WorldValid(w3)
    requires Evolves(w1, w2) && Evolves(w2, w3)
    ensures Evolves(w1, w3)
    ensures Fills(w1, w2) && Fills(w2, w3) ==> Fills(w1, w3)
  {
    forall j | 0 <= j < |w1.locators|
      ensures Grows(w1.locators[j].singletons, w3.locators[j].singletons)
    {
      var m1, m2, m3 := w1.locators[j].singletons, w2.locators[j].singletons, w3.locators[j].singletons;
      assert forall x :: ItemOf(m3, x) == ItemOf(m2, x) || ItemOf(m2, x).Empty?;
    }
  }

  /** Claiming `key` in locator `id` evolves the world and leaves the key `Initializing`. */
  lemma ClaimEvolves<V>(w: World<V>, w1: World<V>, id: nat, key: string)
    requires WorldValid(w) && id < |w.locators| && ItemAt(w, id, key).Empty?
    requires Index(w.locators[id].singletons, key).Success?
    requires w1 == WithMap(w, id, Acquire(w.locators[id].singletons, key).value.state)
    ensures WorldValid(w1) && Evolves(w, w1)
    ensures ItemAt(w1, id, key) == Initializing
    ensures forall x :: x != key ==> ItemAt(w1, id, x) == ItemAt(w, id, x)
  {
  }

  /**
   * Storing the built value after the reads: the claimed key, still
   * `Initializing`, becomes constructed, and the whole request only filled in
   * unrequested keys.
   */
  lemma FinishFills<V>(w: World<V>, w1: World<V>, d: World<V>, done: World<V>, id: nat, key: string, v: V)
    requires WorldValid(w) && WorldValid(w1) && WorldValid(d) && WorldValid(done)
    requires id < |w.locators| && ItemAt(w, id, key).Empty?
    requires Evolves(w, w1) && ItemAt(w1, id, key) == Initializing
    requires forall x :: x != key ==> ItemAt(w1, id, x) == ItemAt(w, id, x)
    requires forall j :: 0 <= j < |w.locators| && j != id ==> w1.locators[j] == w.locators[j]
    requires Evolves(w1, d) && Fills(w1, d)
    requires Index(d.locators[id].singletons, key).Success?
    requires done == WithMap(d, id, Finish(d.locators[id].singletons, key, v))
    ensures Evolves(w, done) && Fills(w, done)
  {
    forall j | 0 <= j < |w.locators|
      ensures done.locators[j].parent == w.locators[j].parent
      ensures SameShape(w.locators[j].singletons, done.locators[j].singletons)
      ensures Grows(w.locators[j].singletons, done.locators[j].singletons)
      ensures Settles(w.locators[j].singletons, done.locators[j].singletons)
    {
      var m, m1, md, mdone := w.locators[j].singletons, w1.locators[j].singletons, d.locators[j].singletons, done.locators[j].singletons;
      assert SameShape(m, m1) && SameShape(m1, md) && Settles(m1, md);
      if j == id {
        forall x | x != key ensures ItemOf(m1, x) == ItemOf(m, x) {
          assert ItemAt(w1, id, x) == ItemAt(w, id, x);
        }
        ClaimThenFinish(m, m1, md, mdone, key);
      } else {
        assert m1 == m && mdone == md;
      }
    }
  }

  /** Claim, nested requests that only construct, then finish: the map only went from unrequested to constructed. */
  lemma ClaimThenFinish<V>(m: SingletonMap<string, V>, m1: SingletonMap<string, V>, md: SingletonMap<string, V>, mdone: SingletonMap<string, V>, key: string)
    requires WellShaped(m) && WellShaped(m1) && WellShaped(md) && WellShaped(mdone)
    requires ItemOf(m, key).Empty? && ItemOf(m1, key) == Initializing
    requires forall x :: x != key ==> ItemOf(m1, x) == ItemOf(m, x)
    requires Settles(m1, md)
    requires ItemOf(mdone, key).Value? && forall x :: x != key ==> ItemOf(mdone, x) == ItemOf(md, x)
    ensures Settles(m, mdone) && Grows(m, mdone)
  {
    forall x ensures ItemOf(mdone, x) == ItemOf(m, x) || (ItemOf(m, x).Empty? && ItemOf(mdone, x).Value?) {
      if x != key {
        assert ItemOf(mdone, x) == ItemOf(md, x) && ItemOf(m1, x) == ItemOf(m, x);
      }
    }
  }

  /**
   * After one more read returned `v` and the remaining reads returned, every read
   * from the `i`-th on holds the value handed to it.
   */
  lemma ReadsKept<V>(fw: World<V>, rw: World<V>, s: Service<V>, i: nat, v: V, acc: seq<V>, vals: seq<V>)
    requires WorldValid(fw) && WorldValid(rw) && Evolves(fw, rw) && Scoped(|fw.locators|, s)
    requires i < |s.uses| && |vals| == |s.uses| && |acc| == i && vals[..i + 1] == acc + [v]
    requires ItemAt(fw, s.uses[i].locator, s.uses[i].accessor.name) == Value(v)
    requires forall j :: i + 1 <= j < |s.uses| ==> ItemAt(rw, s.uses[j].locator, s.uses[j].accessor.name) == Value(vals[j])
    ensures vals[..i] == acc
    ensures forall j :: i <= j < |s.uses| ==> ItemAt(rw, s.uses[j].locator, s.uses[j].accessor.name) == Value(vals[j])
  {
    assert vals[i] == (acc + [v])[i] == v;
    assert vals[..i] == vals[..i + 1][..i];
    ValueSurvives(fw, rw, s.uses[i].locator, s.uses[i].accessor.name);
  }

  /** A constructed value in any locator survives every later request. */
  lemma ValueSurvives<V>(w1: World<V>, w2: World<V>, j: nat, key: string)
    requires WorldValid(w1) && WorldValid(w2) && Evolves(w1, w2) && j < |w1.locators|
    requires ItemAt(w1, j, key).Value?
    ensures ItemAt(w2, j, key) == ItemAt(w1, j, key)
  {
    assert Grows(w1.locators[j].singletons, w2.locators[j].singletons);
  }
}

=== FILE: service_locator_facts.dfy ===
/**
 * What the locator facade promises its users: `singleton` is `getValue` on the
 * locator's own map, accessors are memoized per locator, composites refer to the
 * very instances their accessors return (also across a child and its parent),
 * locators do not see each other's singletons, and no operation changes a
 * locator's parent.
 */
module ServiceLocatorFacts {
  import opened Wrappers
  import opened SingletonMaps
  import opened ServiceLocators

  /** Every read of `s`, transitively, is a read of locator `id` itself. */
  ghost predicate SelfContained<V>(id: nat, s: Service<V>)
    decreases s
  {
    forall i :: 0 <= i < |s.uses| ==> s.uses[i].locator == id && SelfContained(id, s.uses[i].accessor.service)
  }

  /** A self-contained service as a map factory: each read becomes a nested `getValue` keyed by the accessor name. */
  function Lower<V>(s: Service<V>): (f: Factory<string, V>)
    ensures |f.deps| == |s.uses| && f.build == s.build
    ensures forall i :: 0 <= i < |s.uses| ==> f.deps[i] == Request(s.uses[i].accessor.name, Lower(s.uses[i].accessor.service))
    decreases s
  {
    var deps := seq(|s.uses|, i requires 0 <= i < |s.uses| => Request(s.uses[i].accessor.name, Lower(s.uses[i].accessor.service)));
    Factory(deps, s.build)
  }

  /** A map-level outcome seen from the locator: a parked key is a key of locator `id`. */
  function Lift<R>(id: nat, o: Outcome<string, R>): Outcome<Slot, R> {
    match o
    case Returned(v) => Returned(v)
    case Parked(k) => Parked(Slot(id, k))
    case Trapped(t) => Trapped(t)
  }

  /**
   * `singleton(key:factory:)` forwards to `getValue` on the locator's own map:
   * for a factory that only reads accessors of the same locator, the request
   * returns exactly what `getValue` returns, and the world afterwards is the
   * world before with only this locator's map replaced by the map `getValue`
   * leaves behind.
   */
  lemma {:induction false} SingletonForwardsToOwnMap<V>(w: World<V>, id: nat, key: string, s: Service<V>)
    requires WorldValid(w) && id < |w.locators| && Scoped(|w.locators|, s) && SelfContained(id, s)
    ensures var g := GetValue(w.locators[id].singletons, key, Lower(s));
      var r := Singleton(w, id, key, s);
      r.world == WithMap(w, id, g.state) && r.outcome == Lift(id, g.outcome)
    decreases s, 1, 0
  {
    var m := w.locators[id].singletons;
    assert WithMap(w, id, m) == w;
    match Acquire(m, key)
    case Failure(_) =>
    case Success(Acquired(m1, claim)) =>
      match claim
      case Hit(_) =>
      case MustWait =>
      case Claimed =>
        var w1 := WithMap(w, id, m1);
        ReadAllForwardsToOwnMap(w1, id, s, 0, []);
        var deps := ReadAll(w1, s, 0, []);
        var gd := RunDeps(m1, Lower(s), 0, []);
        assert deps.world == WithMap(w, id, gd.state);
        assert deps.world.locators[id].singletons == gd.state;
        if gd.outcome.Returned? {
          var v := s.build(gd.outcome.value);
          assert WithMap(deps.world, id, Finish(gd.state, key, v)) == WithMap(w, id, Finish(gd.state, key, v));
        }
  }

  /** The reads of a self-contained service are the nested requests of its map factory. */
  lemma {:induction false} ReadAllForwardsToOwnMap<V>(w: World<V>, id: nat, s: Service<V>, i: nat, acc: seq<V>)
    requires WorldValid(w) && id < |w.locators| && Scoped(|w.locators|, s) && SelfContained(id, s)
    requires i <= |s.uses| && |acc| == i
    ensures var g := RunDeps(w.locators[id].singletons, Lower(s), i, acc);
      var r := ReadAll(w, s, i, acc);
      r.world == WithMap(w, id, g.state) && r.outcome == Lift(id, g.outcome)
    decreases s, 0, |s.uses| - i
  {
    var m := w.locators[id].singletons;
    assert WithMap(w, id, m) == w;
    if i < |s.uses| {
      var u := s.uses[i];
      SingletonForwardsToOwnMap(w, id, u.accessor.name, u.accessor.service);
      var first := Singleton(w, id, u.accessor.name, u.accessor.service);
      var gf := GetValue(m, u.accessor.name, Lower(u.accessor.service));
      assert Lower(s).deps[i] == Request(u.accessor.name, Lower(u.accessor.service));
      if gf.outcome.Returned? {
        var v := gf.outcome.value;
        ReadAllForwardsToOwnMap(first.world, id, s, i + 1, acc + [v]);
        assert first.world.locators[id].singletons == gf.state;
        var rest := ReadAll(first.world, s, i + 1, acc + [v]);
        var gr := RunDeps(gf.state, Lower(s), i + 1, acc + [v]);
        assert rest.world == WithMap(w, id, gr.state);
      }
    }
  }

  /** Some read of `s`, directly or through the services it reads, is a read of locator `j`. */
  ghost predicate Touches<V>(j: nat, s: Service<V>)
    decreases s
  {
    exists i :: 0 <= i < |s.uses| && (s.uses[i].locator == j || Touches(j, s.uses[i].accessor.service))
  }

  /**
   * Locators are independent: a request on locator `id` leaves every other
   * locator its factory does not read, directly or through nested reads,
   * exactly as it was.
   */
  lemma {:induction false} LocatorsAreIndependent<V>(w: World<V>, id: nat, key: string, s: Service<V>, j: nat)
    requires WorldValid(w) && id < |w.locators| && Scoped(|w.locators|, s)
    requires j < |w.locators| && j != id && !Touches(j, s)
    ensures Singleton(w, id, key, s).world.locators[j] == w.locators[j]
    decreases s, 1, 0
  {
    var m := w.locators[id].singletons;
    match Acquire(m, key)
    case Failure(_) =>
    case Success(Acquired(m1, claim)) =>
      match claim
      case Hit(_) =>
      case MustWait =>
      case Claimed =>
        var w1 := WithMap(w, id, m1);
        ReadsLeaveUntouched(w1, s, 0, [], j);
  }

  /** The reads of `s` from the `i`-th on leave every locator `s` does not touch unchanged. */
  lemma {:induction false} ReadsLeaveUntouched<V>(w: World<V>, s: Service<V>, i: nat, acc: seq<V>, j: nat)
    requires WorldValid(w) && Scoped(|w.locators|, s) && i <= |s.uses| && |acc| == i
    requires j < |w.locators| && !Touches(j, s)
    ensures ReadAll(w, s, i, acc).world.locators[j] == w.locators[j]
    decreases s, 0, |s.uses| - i
  {
    if i < |s.uses| {
      var u := s.uses[i];
      assert u.locator != j && !Touches(j, u.accessor.service);
      LocatorsAreIndependent(w, u.locator, u.accessor.name, u.accessor.service, j);
      var first := Singleton(w, u.locator, u.accessor.name, u.accessor.service);
      if first.outcome.Returned? {
        ReadsLeaveUntouched(first.world, s, i + 1, acc + [first.outcome.value], j);
      }
    }
  }

  /** Some read of `s`, directly or through the services it reads, is the accessor `x` of locator `j`. */
  ghost predicate ReadsKey<V>(j: nat, x: string, s: Service<V>)
    decreases s
  {
    exists i :: 0 <= i < |s.uses| &&
      ((s.uses[i].locator == j && s.uses[i].accessor.name == x) || ReadsKey(j, x, s.uses[i].accessor.service))
  }

  /**
   * A request changes no entry but the requested one and those its factory
   * reads, directly or nested. So a child's singletons never reach its parent's
   * map: the parent gains only the entries of its own accessors that the
   * child's factory reads (`parent.x`).
   */
  lemma {:induction false} EntriesChangeOnlyThroughReads<V>(w: World<V>, id: nat, key: string, s: Service<V>, j: nat, x: string)
    requires WorldValid(w) && id < |w.locators| && Scoped(|w.locators|, s) && j < |w.locators|
    requires !(j == id && x == key) && !ReadsKey(j, x, s)
    ensures ItemAt(Singleton(w, id, key, s).world, j, x) == ItemAt(w, j, x)
    decreases s, 1, 0
  {
    var m := w.locators[id].singletons;
    match Acquire(m, key)
    case Failure(_) =>
    case Success(Acquired(m1, claim)) =>
      match claim
      case Hit(_) =>
      case MustWait =>
      case Claimed =>
        var w1 := WithMap(w, id, m1);
        assert ItemAt(w1, j, x) == ItemAt(w, j, x);
        ReadsLeaveEntry(w1, s, 0, [], j, x);
        var deps := ReadAll(w1, s, 0, []);
        if deps.outcome.Returned? {
          var v := s.build(deps.outcome.value);
          var mine := deps.world.locators[id].singletons;
          assert ItemAt(WithMap(deps.world, id, Finish(mine, key, v)), j, x) == ItemAt(deps.world, j, x);
        }
  }

  /** The reads of `s` from the `i`-th on leave every entry `s` does not read unchanged. */
  lemma {:induction false} ReadsLeaveEntry<V>(w: World<V>, s: Service<V>, i: nat, acc: seq<V>, j: nat, x: string)
    requires WorldValid(w) && Scoped(|w.locators|, s) && i <= |s.uses| && |acc| == i
    requires j < |w.locators| && !ReadsKey(j, x, s)
    ensures ItemAt(ReadAll(w, s, i, acc).world, j, x) == ItemAt(w, j, x)
    decreases s, 0, |s.uses| - i
  {
    if i < |s.uses| {
      var u := s.uses[i];
      assert !(u.locator == j && u.accessor.name == x) && !ReadsKey(j, x, u.accessor.service);
      EntriesChangeOnlyThroughReads(w, u.locator, u.accessor.name, u.accessor.service, j, x);
      var first := Singleton(w, u.locator, u.accessor.name, u.accessor.service);
      if first.outcome.Returned? {
        ReadsLeaveEntry(first.world, s, i + 1, acc + [first.outcome.value], j, x);
      }
    }
  }

  /** A self-contained request changes no locator but its own. */
  lemma SelfContainedTouchesOnlyItself<V>(id: nat, s: Service<V>, j: nat)
    requires SelfContained(id, s) && j != id
    ensures !Touches(j, s)
    decreases s
  {
    forall i | 0 <= i < |s.uses|
      ensures s.uses[i].locator != j && !Touches(j, s.uses[i].accessor.service)
    {
      SelfContainedTouchesOnlyItself(id, s.uses[i].accessor.service, j);
    }
  }

  /** Reading the same accessor twice yields the identical instance, and the second read changes nothing. */
  lemma ReadTwiceSameInstance<V>(w: World<V>, id: nat, a: Accessor<V>)
    requires WorldValid(w) && id < |w.locators| && Scoped(|w.locators|, a.service)
    ensures var first := Read(w, id, a);
      first.outcome.Returned? ==> Read(first.world, id, a) == Resolution(first.world, Returned(first.outcome.value))
  {
  }

  /**
   * A singleton built by an accessor that reads other accessors (of its own
   * locator or of any other) is built from exactly the instances those accessors
   * return afterwards: re-reading any of them hands back the very value the
   * composite was built from, without a change.
   */
  lemma {:induction false} CompositeReferencesReadInstances<V>(w: World<V>, id: nat, c: Accessor<V>)
    requires WorldValid(w) && id < |w.locators| && Scoped(|w.locators|, c.service)
    requires ItemAt(w, id, c.name).Empty?
    ensures var r := Read(w, id, c);
      r.outcome.Returned? ==>
        exists values: seq<V> ::
          && |values| == |c.service.uses|
          && r.outcome.value == c.service.build(values)
          && forall q :: 0 <= q < |c.service.uses| ==>
               Read(r.world, c.service.uses[q].locator, c.service.uses[q].accessor) == Resolution(r.world, Returned(values[q]))
  {
    var s := c.service;
    var r := Read(w, id, c);
    if r.outcome.Returned? {
      var m := w.locators[id].singletons;
      var m1 := Acquire(m, c.name).value.state;
      var w1 := WithMap(w, id, m1);
      var deps := ReadAll(w1, s, 0, []);
      var values := deps.outcome.value;
      assert ItemAt(w1, id, c.name) == Initializing;
      assert ItemAt(deps.world, id, c.name) == Initializing;
      var done := WithMap(deps.world, id, Finish(deps.world.locators[id].singletons, c.name, s.build(values)));
      assert r.world == done;
      forall q | 0 <= q < |s.uses|
        ensures Read(r.world, s.uses[q].locator, s.uses[q].accessor) == Resolution(r.world, Returned(values[q]))
      {
        var u := s.uses[q];
        assert ItemAt(deps.world, u.locator, u.accessor.name) == Value(values[q]);
        if u.locator == id {
          assert u.accessor.name != c.name;
        }
        assert ItemAt(r.world, u.locator, u.accessor.name) == Value(values[q]);
      }
    }
  }

  /**
   * The root composite of the tests: an accessor of a locator whose factory reads
   * one other accessor of the same locator holds the very instance that accessor
   * returns.
   */
  lemma CompositeHoldsSameInstance<V>(w: World<V>, id: nat, composite: Accessor<V>, item: Accessor<V>)
    requires WorldValid(w) && id < |w.locators| && Scoped(|w.locators|, item.service)
    requires composite.service.uses == [Use(id, item)] && ItemAt(w, id, composite.name).Empty?
    ensures var r := Read(w, id, composite);
      r.outcome.Returned? ==>
        var again := Read(r.world, id, item);
        again.world == r.world && again.outcome.Returned? && r.outcome.value == composite.service.build([again.outcome.value])
  {
    var r := Read(w, id, composite);
    CompositeReferencesReadInstances(w, id, composite);
    if r.outcome.Returned? {
      var values :| |values| == 1 && r.outcome.value == composite.service.build(values)
        && Read(r.world, id, item) == Resolution(r.world, Returned(values[0]));
      assert values == [values[0]];
    }
  }

  /**
   * The child composite of the tests: an accessor of a child locator whose factory
   * reads an accessor of `parent` holds the very instance the parent returns for
   * that accessor.
   */
  lemma ChildCompositeHoldsParentInstance<V>(w: World<V>, child: nat, composite: Accessor<V>, fromParent: Accessor<V>)
    requires WorldValid(w) && child < |w.locators| && w.locators[child].parent.Some?
    requires Scoped(|w.locators|, fromParent.service)
    requires composite.service.uses == [Use(w.locators[child].parent.value, fromParent)]
    requires ItemAt(w, child, composite.name).Empty?
    ensures var p := w.locators[child].parent.value;
      var r := Read(w, child, composite);
      r.outcome.Returned? ==>
        && r.world.locators[child].parent == Some(p)
        && var again := Read(r.world, p, fromParent);
           again.world == r.world && again.outcome.Returned? && r.outcome.value == composite.service.build([again.outcome.value])
  {
    var p := w.locators[child].parent.value;
    var r := Read(w, child, composite);
    CompositeReferencesReadInstances(w, child, composite);
    if r.outcome.Returned? {
      var values :| |values| == 1 && r.outcome.value == composite.service.build(values)
        && Read(r.world, p, fromParent) == Resolution(r.world, Returned(values[0]));
      assert values == [values[0]];
    }
  }

  /** Anything a program can do with its locators. */
  datatype Op<!V> =
    | Get(locator: nat, key: string, service: Service<V>)  // `singleton(key:factory:)`, or an accessor read
    | Activated(locator: nat)
    | Deactivated(locator: nat)
    | CreateRoot
    | CreateChild(parent: nat)

  /** The operation refers only to locators that exist. */
  ghost predicate Enabled<V>(w: World<V>, op: Op<V>) {
    match op
    case Get(id, _, s) => id < |w.locators| && Scoped(|w.locators|, s)
    case Activated(id) => id < |w.locators|
    case Deactivated(id) => id < |w.locators|
    case CreateRoot => true
    case CreateChild(p) => p < |w.locators|
  }

  function Perform<V>(w: World<V>, op: Op<V>): (r: World<V>)
    requires WorldValid(w) && Enabled(w, op)
    ensures WorldValid(r) && |r.locators| >= |w.locators|
    ensures forall j :: 0 <= j < |w.locators| ==> r.locators[j].parent == w.locators[j].parent
    ensures forall j :: 0 <= j < |w.locators| ==> SameShape(w.locators[j].singletons, r.locators[j].singletons)
    ensures forall j, key :: 0 <= j < |w.locators| && ItemAt(w, j, key).Value? ==> ItemAt(r, j, key) == ItemAt(w, j, key)
  {
    match op
    case Get(id, key, s) =>
      var r := Singleton(w, id, key, s).world;
      forall j, key' | 0 <= j < |w.locators| && ItemAt(w, j, key').Value?
        ensures ItemAt(r, j, key') == ItemAt(w, j, key')
      {
        ValueSurvives(w, r, j, key');
      }
      r
    case Activated(id) => Activate(w, id)
    case Deactivated(id) => Deactivate(w, id)
    case CreateRoot => NewRoot(w).world
    case CreateChild(p) => NewChild(w, p).world
  }

  ghost predicate Runnable<V>(w: World<V>, ops: seq<Op<V>>)
    decreases |ops|
  {
    WorldValid(w) && (|ops| > 0 ==> Enabled(w, ops[0]) && Runnable(Perform(w, ops[0]), ops[1..]))
  }

  /**
   * Any sequence of operations: no locator disappears, a locator's `parent` is
   * the one it was created with, its bucket array never changes, and every
   * singleton it has constructed stays constructed with the same instance.
   */
  function PerformAll<V>(w: World<V>, ops: seq<Op<V>>): (r: World<V>)
    requires Runnable(w, ops)
    ensures WorldValid(r) && |r.locators| >= |w.locators|
    ensures forall j :: 0 <= j < |w.locators| ==> r.locators[j].parent == w.locators[j].parent
    ensures forall j :: 0 <= j < |w.locators| ==> SameShape(w.locators[j].singletons, r.locators[j].singletons)
    ensures forall j, key :: 0 <= j < |w.locators| && ItemAt(w, j, key).Value? ==> ItemAt(r, j, key) == ItemAt(w, j, key)
    decreases |ops|
  {
    if |ops| == 0 then w
    else PerformAll(Perform(w, ops[0]), ops[1..])
  }

  /** The lifecycle hooks are unobservable: every later request behaves as without them. */
  lemma HooksAreUnobservable<V>(w: World<V>, id: nat, j: nat, key: string, s: Service<V>)
    requires WorldValid(w) && id < |w.locators| && j < |w.locators| && Scoped(|w.locators|, s)
    ensures Singleton(Activate(w, id), j, key, s) == Singleton(w, j, key, s)
    ensures Singleton(Deactivate(w, id), j, key, s) == Singleton(w, j, key, s)
  {
  }
}

=== FILE: singleton_map.dfy ===
/**
 * The striped singleton map: a fixed array of buckets, each a map from key to
 * construction state, and the construction protocol of `getValue` split into the
 * atomic steps that run while a bucket's lock is held.
 *
 * The lock itself is not modelled: every step below is one lock-held region, so
 * the map value a step returns is the bucket contents the next holder of the lock
 * sees. The factory runs between two such steps, with the lock released; a factory
 * is modelled as a tree of requests it makes to the same map before building its
 * value, which is enough to express reentrant construction.
 */
module SingletonMaps {
  import opened Wrappers
  import opened SwiftInt

  /** The platform the library was compiled for; only the default bucket count depends on it. */
  datatype Platform = IOS | OtherPlatform

  /** The bucket count used when the caller supplies none: a small positive count on iOS, a larger one elsewhere. */
  function DefaultBucketCount(platform: Platform): (r: Int64)
    ensures r > 0
    ensures platform.IOS? ==> r == 8
    ensures !platform.IOS? ==> r == 64
  {
    if platform.IOS? then 8 else 64
  }

  /** The construction state of one key (`.none`, `.initializing`, `.value`). */
  datatype Item<V> =
    | Empty          // never requested; also what a lookup of an absent key yields
    | Initializing   // a thread is running the factory
    | Value(value: V)

  /** The contents of one bucket. A key that is absent is `Empty`. */
  type Bucket<K(==), V> = map<K, Item<V>>

  /**
   * The map: `bucketCount` buckets fixed at construction, and the hash of the key
   * type, which is a pure function of the key for the lifetime of the process.
   */
  datatype SingletonMap<!K(==), V> = SingletonMap(bucketCount: int, buckets: seq<Bucket<K, V>>, hash: K -> Int64)

  predicate WellShaped<K(==,!new), V>(m: SingletonMap<K, V>) {
    m.bucketCount > 0 && |m.buckets| == m.bucketCount
  }

  /** Two maps that differ at most in the contents of their buckets. */
  ghost predicate SameShape<K(!new), V>(m: SingletonMap<K, V>, m': SingletonMap<K, V>) {
    m'.bucketCount == m.bucketCount && |m'.buckets| == |m.buckets| && m'.hash == m.hash
  }

  /**
   * The bucket a hash selects, `abs(h) % bucketCount`, computed with Swift's trapping
   * `abs` and truncating `%`. It is a valid index exactly when `h` is not `Int.min`,
   * and then it is the Euclidean residue of the magnitude of `h`.
   */
  function BucketIndex(h: Int64, bucketCount: int): (r: Result<nat, Trap>)
    requires bucketCount > 0
    ensures r.Success? <==> h as int != INT_MIN
    ensures r.Failure? ==> r.error == ArithmeticOverflow
    ensures r.Success? ==> r.value < bucketCount
    ensures r.Success? ==> r.value == (if h < 0 then -(h as int) else h as int) % bucketCount
  {
    match Abs(h)
    case Failure(e) => Failure(e)
    case Success(a) =>
      RemOfNonNegative(a as int, bucketCount);
      Success(Rem(a as int, bucketCount))
  }

  /** The index of the bucket that holds `k`. */
  function Index<K(==,!new), V>(m: SingletonMap<K, V>, k: K): (r: Result<nat, Trap>)
    requires WellShaped(m)
    ensures r.Success? ==> r.value < |m.buckets|
  {
    BucketIndex(m.hash(k), m.bucketCount)
  }

  /**
   * `bucket.contents[key, default: .none]` in the bucket of `k`: a key stored
   * there reads as its entry, and a key that is absent (or cannot be placed)
   * reads as `.none`.
   */
  function ItemOf<K(==,!new), V>(m: SingletonMap<K, V>, k: K): (r: Item<V>)
    requires WellShaped(m)
    ensures Index(m, k).Success? && k in m.buckets[Index(m, k).value] ==> r == m.buckets[Index(m, k).value][k]
    ensures !r.Empty? ==> Index(m, k).Success? && k in m.buckets[Index(m, k).value]
  {
    match Index(m, k)
    case Failure(_) => Empty
    case Success(i) => if k in m.buckets[i] then m.buckets[i][k] else Empty
  }

  /**
   * The representation invariant: every stored key sits in the bucket its hash
   * selects, and no bucket stores `Empty` explicitly.
   */
  ghost predicate Valid<K(!new), V>(m: SingletonMap<K, V>) {
    && WellShaped(m)
    && forall i, k :: 0 <= i < |m.buckets| && k in m.buckets[i] ==> Index(m, k) == Success(i) && !m.buckets[i][k].Empty?
  }

  /**
   * The first two lines of `init(bucketCount:)`: a missing count takes the
   * platform default, and a count that is not positive fails the precondition.
   */
  function BucketCountFor(bucketCount: Option<Int64>, platform: Platform): (r: Result<nat, Trap>)
    ensures bucketCount.Some? && bucketCount.value > 0 ==> r == Success(bucketCount.value as nat)
    ensures bucketCount.Some? && bucketCount.value <= 0 ==> r == Failure(PreconditionFailure)
    ensures bucketCount.None? && platform.IOS? ==> r == Success(8)
    ensures bucketCount.None? && !platform.IOS? ==> r == Success(64)
  {
    var count := bucketCount.GetOr(DefaultBucketCount(platform)) as int;
    if count <= 0 then Failure(PreconditionFailure) else Success(count)
  }

  /**
   * `SingletonMap.init(bucketCount:)`: with the count resolved, the map starts
   * with that many empty buckets, so every key is unrequested.
   */
  function Init<K(==,!new), V>(bucketCount: Option<Int64>, platform: Platform, hash: K -> Int64): (r: Result<SingletonMap<K, V>, Trap>)
    ensures r.Success? <==> BucketCountFor(bucketCount, platform).Success?
    ensures r.Failure? ==> r.error == PreconditionFailure
    ensures r.Success? ==> Valid(r.value) && r.value.hash == hash
    ensures r.Success? ==> r.value.bucketCount == BucketCountFor(bucketCount, platform).value
    ensures r.Success? ==> forall i :: 0 <= i < |r.value.buckets| ==> r.value.buckets[i] == map[]
    ensures r.Success? ==> forall k :: ItemOf(r.value, k) == Empty
  {
    match BucketCountFor(bucketCount, platform)
    case Failure(e) => Failure(e)
    case Success(count) => Success(SingletonMap(count, seq(count, _ => map[]), hash))
  }

  /**
   * `bucket.contents[key] = item` in the bucket of `k`: only that entry of that
   * bucket changes, so every other key reads as before.
   */
  function Put<K(==,!new), V>(m: SingletonMap<K, V>, k: K, item: Item<V>): (r: SingletonMap<K, V>)
    requires Valid(m) && Index(m, k).Success? && !item.Empty?
    ensures Valid(r) && SameShape(m, r)
    ensures ItemOf(r, k) == item
    ensures forall x :: x != k ==> ItemOf(r, x) == ItemOf(m, x)
    ensures forall j :: 0 <= j < |m.buckets| && j != Index(m, k).value ==> r.buckets[j] == m.buckets[j]
    ensures r.buckets[Index(m, k).value].Keys == m.buckets[Index(m, k).value].Keys + {k}
  {
    var i := Index(m, k).value;
    var r := m.(buckets := m.buckets[i := m.buckets[i][k := item]]);
    WriteKeepsValid(m, r, k, i, item);
    r
  }

  /** Writing a non-`Empty` item for `k` into the bucket `k` hashes to keeps the invariant and every other key. */
  lemma WriteKeepsValid<K(!new), V>(m: SingletonMap<K, V>, r: SingletonMap<K, V>, k: K, i: nat, item: Item<V>)
    requires Valid(m) && SameShape(m, r) && Index(m, k) == Success(i) && !item.Empty?
    requires forall j :: 0 <= j < |m.buckets| && j != i ==> r.buckets[j] == m.buckets[j]
    requires r.buckets[i] == m.buckets[i][k := item]
    ensures Valid(r)
    ensures ItemOf(r, k) == item
    ensures forall x :: x != k ==> ItemOf(r, x) == ItemOf(m, x)
  {
    forall j, x | 0 <= j < |r.buckets| && x in r.buckets[j]
      ensures Index(r, x) == Success(j) && !r.buckets[j][x].Empty?
    {
      assert Index(r, x) == Index(m, x);
      if j != i || x != k {
        assert x in m.buckets[j];
      }
    }
    forall x | x != k
      ensures ItemOf(r, x) == ItemOf(m, x)
    {
      assert Index(r, x) == Index(m, x);
    }
  }

  /** What one lock-held pass of the `getValue` loop tells its caller. */
  datatype Claim<V> =
    | Claimed        // the key was `.none`: this caller must run the factory
    | MustWait       // another caller is running the factory: park on the condition
    | Hit(value: V)  // the memoized value

  datatype Acquired<!K(==), V> = Acquired(state: SingletonMap<K, V>, claim: Claim<V>)

  /**
   * One pass of the `getValue` loop with the bucket lock held: an unrequested key
   * becomes `Initializing` and is claimed by the caller; a key under construction
   * makes the caller wait; a constructed key is a hit. Only the claim writes, and
   * it writes only the caller's key. Locating the bucket traps on a hash of `Int.min`.
   */
  function Acquire<K(==,!new), V>(m: SingletonMap<K, V>, k: K): (r: Result<Acquired<K, V>, Trap>)
    requires Valid(m)
    ensures r.Failure? <==> Index(m, k).Failure?
    ensures r.Failure? ==> r.error == ArithmeticOverflow
    ensures r.Success? ==> Valid(r.value.state) && SameShape(m, r.value.state)
    ensures r.Success? && ItemOf(m, k).Empty? ==> r.value.claim.Claimed? && ItemOf(r.value.state, k) == Initializing
    ensures r.Success? && ItemOf(m, k).Initializing? ==> r.value == Acquired(m, MustWait)
    ensures r.Success? && ItemOf(m, k).Value? ==> r.value == Acquired(m, Hit(ItemOf(m, k).value))
    ensures r.Success? ==> forall x :: x != k ==> ItemOf(r.value.state, x) == ItemOf(m, x)
    ensures r.Success? ==> forall j :: 0 <= j < |m.buckets| && j != Index(m, k).value ==> r.value.state.buckets[j] == m.buckets[j]
  {
    match Index(m, k)
    case Failure(e) => Failure(e)
    case Success(i) =>
      var contents := m.buckets[i];
      match if k in contents then contents[k] else Empty
      case Empty => Success(Acquired(Put(m, k, Initializing), Claimed))
      case Initializing => Success(Acquired(m, MustWait))
      case Value(v) => Success(Acquired(m, Hit(v)))
  }

  /**
   * The lock-held region after the factory returns: store the constructed value
   * under the caller's key, touching nothing else.
   */
  function Finish<K(==,!new), V>(m: SingletonMap<K, V>, k: K, v: V): (r: SingletonMap<K, V>)
    requires Valid(m) && Index(m, k).Success?
    ensures Valid(r) && SameShape(m, r)
    ensures ItemOf(r, k) == Value(v)
    ensures forall x :: x != k ==> ItemOf(r, x) == ItemOf(m, x)
    ensures forall j :: 0 <= j < |m.buckets| && j != Index(m, k).value ==> r.buckets[j] == m.buckets[j]
  {
    Put(m, k, Value(v))
  }

  /**
   * A factory: the values it requests from the same map, in order, and how it
   * builds its own value from theirs.
   */
  datatype Factory<K, !V> = Factory(deps: seq<Request<K, V>>, build: seq<V> -> V)

  /** A nested `getValue(for: key, factory: factory)` made from inside a factory. */
  datatype Request<K, !V> = Request(key: K, factory: Factory<K, V>)

  /** How a caller's `getValue` ends: with a value, parked behind `key`, or trapped. */
  datatype Outcome<K, R> = Returned(value: R) | Parked(key: K) | Trapped(trap: Trap)

  /** The map after a call, its outcome, and the keys whose factories it started, in order. */
  datatype Run<!K(==), V, R> = Run(state: SingletonMap<K, V>, outcome: Outcome<K, R>, invoked: seq<K>)

  /** Every key either reads as before or was unrequested before. */
  ghost predicate Grows<K(!new), V>(m: SingletonMap<K, V>, m': SingletonMap<K, V>)
    requires WellShaped(m) && WellShaped(m')
  {
    forall x :: ItemOf(m', x) == ItemOf(m, x) || ItemOf(m, x).Empty?
  }

  /** Every key either reads as before or went from unrequested to constructed. */
  ghost predicate Settles<K(!new), V>(m: SingletonMap<K, V>, m': SingletonMap<K, V>)
    requires WellShaped(m) && WellShaped(m')
  {
    forall x :: ItemOf(m', x) == ItemOf(m, x) || (ItemOf(m, x).Empty? && ItemOf(m', x).Value?)
  }

  predicate NoDuplicates<T(==)>(s: seq<T>) {
    forall i, j :: 0 <= i < j < |s| ==> s[i] != s[j]
  }

  /** `invoked` lists, once each, exactly the keys whose state differs between `m` and `m'`. */
  ghost predicate Records<K(!new), V>(m: SingletonMap<K, V>, m': SingletonMap<K, V>, invoked: seq<K>)
    requires WellShaped(m) && WellShaped(m')
  {
    && NoDuplicates(invoked)
    && forall x :: x in invoked <==> ItemOf(m', x) != ItemOf(m, x)
  }

  /**
   * `getValue(for: k, factory: f)` run by one caller whose factory makes nested
   * requests to the same map. A constructed key is returned without running `f`
   * and without a change; a key under construction parks the caller without a
   * change; an unrequested key is claimed, its factory's requests run with the
   * lock released, and the built value is stored and returned. Only keys whose
   * factories started change, each from unrequested, and a returned value is what
   * the map now holds for `k`.
   */
  function GetValue<K(==,!new), V>(m: SingletonMap<K, V>, k: K, f: Factory<K, V>): (r: Run<K, V, V>)
    requires Valid(m)
    ensures Valid(r.state) && SameShape(m, r.state)
    ensures Grows(m, r.state) && Records(m, r.state, r.invoked)
    ensures r.outcome.Returned? ==> Settles(m, r.state) && ItemOf(r.state, k) == Value(r.outcome.value)
    ensures Index(m, k).Failure? ==> r == Run(m, Trapped(ArithmeticOverflow), [])
    ensures ItemOf(m, k).Initializing? ==> r == Run(m, Parked(k), [])
    ensures ItemOf(m, k).Value? ==> r == Run(m, Returned(ItemOf(m, k).value), [])
    ensures Index(m, k).Success? && ItemOf(m, k).Empty? ==> |r.invoked| > 0 && r.invoked[0] == k
    ensures r.outcome.Trapped? ==> r.outcome.trap == ArithmeticOverflow
    decreases f, 1, 0
  {
    match Acquire(m, k)
    case Failure(e) => Run(m, Trapped(e), [])
    case Success(Acquired(m1, claim)) =>
      match claim
      case Hit(v) => Run(m1, Returned(v), [])
      case MustWait => Run(m1, Parked(k), [])
      case Claimed =>
        var deps := RunDeps(m1, f, 0, []);
        ClaimedKeyStaysInitializing(m, m1, deps.state, k, deps.invoked);
        match deps.outcome
        case Returned(values) =>
          var v := f.build(values);
          var done := Finish(deps.state, k, v);
          FinishSettles(m, m1, deps.state, done, k, deps.invoked);
          Run(done, Returned(v), [k] + deps.invoked)
        case Parked(w) => Run(deps.state, Parked(w), [k] + deps.invoked)
        case Trapped(t) => Run(deps.state, Trapped(t), [k] + deps.invoked)
  }

  /**
   * A claimed key whose factory does not return, because a nested request parks
   * or traps, is left under construction: nothing resets it.
   */
  lemma UnfinishedClaimStaysInitializing<K(!new), V>(m: SingletonMap<K, V>, k: K, f: Factory<K, V>)
    requires Valid(m) && Index(m, k).Success? && ItemOf(m, k).Empty?
    ensures var r := GetValue(m, k, f);
      !r.outcome.Returned? ==> ItemOf(r.state, k) == Initializing
  {
    var m1 := Acquire(m, k).value.state;
    var deps := RunDeps(m1, f, 0, []);
    ClaimedKeyStaysInitializing(m, m1, deps.state, k, deps.invoked);
  }

  /**
   * While the caller's factory runs, its own key stays `Initializing`: the nested
   * requests only move unrequested keys. The changes made so far are exactly the
   * claim plus the nested ones.
   */
  lemma ClaimedKeyStaysInitializing<K(!new), V>(m: SingletonMap<K, V>, m1: SingletonMap<K, V>, d: SingletonMap<K, V>, k: K, inv: seq<K>)
    requires WellShaped(m) && WellShaped(m1) && WellShaped(d)
    requires ItemOf(m, k).Empty? && ItemOf(m1, k) == Initializing
    requires forall x :: x != k ==> ItemOf(m1, x) == ItemOf(m, x)
    requires Grows(m1, d) && Records(m1, d, inv)
    ensures ItemOf(d, k) == Initializing && k !in inv
    ensures Grows(m, d) && Records(m, d, [k] + inv)
  {
    assert ItemOf(d, k) == ItemOf(m1, k);
    var all := [k] + inv;
    forall a, b | 0 <= a < b < |all| ensures all[a] != all[b] {
      if a == 0 {
        assert all[b] == inv[b - 1];
      } else {
        assert all[a] == inv[a - 1] && all[b] == inv[b - 1];
      }
    }
    forall x ensures x in all <==> ItemOf(d, x) != ItemOf(m, x) {
      if x != k {
        assert x in all <==> x in inv;
      }
    }
  }

  /** Storing the built value completes the claimed key's move from unrequested to constructed. */
  lemma FinishSettles<K(!new), V>(m: SingletonMap<K, V>, m1: SingletonMap<K, V>, d: SingletonMap<K, V>, done: SingletonMap<K, V>, k: K, inv: seq<K>)
    requires WellShaped(m) && WellShaped(m1) && WellShaped(d) && WellShaped(done)
    requires ItemOf(m, k).Empty? && ItemOf(m1, k) == Initializing
    requires forall x :: x != k ==> ItemOf(m1, x) == ItemOf(m, x)
    requires Settles(m1, d) && Records(m, d, [k] + inv)
    requires ItemOf(done, k).Value? && forall x :: x != k ==> ItemOf(done, x) == ItemOf(d, x)
    ensures Settles(m, done) && Grows(m, done) && Records(m, done, [k] + inv)
  {
    forall x ensures x in [k] + inv <==> ItemOf(done, x) != ItemOf(m, x) {
      if x != k {
        assert ItemOf(done, x) == ItemOf(d, x);
      }
    }
  }

  /** Two runs one after the other: the changes of the first are kept, and the keys they started are disjoint. */
  lemma ChainRuns<K(!new), V>(m: SingletonMap<K, V>, m1: SingletonMap<K, V>, m2: SingletonMap<K, V>, inv1: seq<K>, inv2: seq<K>)
    requires WellShaped(m) && WellShaped(m1) && WellShaped(m2)
    requires Settles(m, m1) && Records(m, m1, inv1)
    requires Grows(m1, m2) && Records(m1, m2, inv2)
    ensures Grows(m, m2) && Records(m, m2, inv1 + inv2)
    ensures Settles(m1, m2) ==> Settles(m, m2)
  {
    var all := inv1 + inv2;
    forall a, b | 0 <= a < b < |all| ensures all[a] != all[b] {
      if b < |inv1| {
        assert all[a] == inv1[a] && all[b] == inv1[b];
      } else if a >= |inv1| {
        assert all[a] == inv2[a - |inv1|] && all[b] == inv2[b - |inv1|];
      } else {
        var x, y := inv1[a], inv2[b - |inv1|];
        assert all[a] == x && all[b] == y;
        assert x in inv1 && y in inv2;
        assert !ItemOf(m1, x).Empty? && ItemOf(m1, y).Empty?;
      }
    }
    forall x ensures x in all <==> ItemOf(m2, x) != ItemOf(m, x) {
      assert x in all <==> x in inv1 || x in inv2;
    }
  }

  /**
   * The requests of `f` from the `i`-th on, run in order while the caller's own
   * key is `Initializing`; the first one that does not return ends the factory.
   * `acc` holds the values the earlier requests returned.
   */
  function RunDeps<K(==,!new), V>(m: SingletonMap<K, V>, f: Factory<K, V>, i: nat, acc: seq<V>): (r: Run<K, V, seq<V>>)
    requires Valid(m) && i <= |f.deps| && |acc| == i
    ensures Valid(r.state) && SameShape(m, r.state)
    ensures Grows(m, r.state) && Records(m, r.state, r.invoked)
    ensures r.outcome.Returned? ==> Settles(m, r.state) && |r.outcome.value| == |f.deps| && r.outcome.value[..i] == acc
    ensures r.outcome.Returned? ==> forall j :: i <= j < |f.deps| ==> ItemOf(r.state, f.deps[j].key) == Value(r.outcome.value[j])
    ensures r.outcome.Trapped? ==> r.outcome.trap == ArithmeticOverflow
    decreases f, 0, |f.deps| - i
  {
    if i == |f.deps| then Run(m, Returned(acc), [])
    else
      var req := f.deps[i];
      var first := GetValue(m, req.key, req.factory);
      match first.outcome
      case Returned(v) =>
        var rest := RunDeps(first.state, f, i + 1, acc + [v]);
        ChainRuns(m, first.state, rest.state, first.invoked, rest.invoked);
        if rest.outcome.Returned? then
          KeepsEarlierValues(first.state, rest.state, f, i, v, acc, rest.outcome.value);
          Run(rest.state, rest.outcome, first.invoked + rest.invoked)
        else
          Run(rest.state, rest.outcome, first.invoked + rest.invoked)
      case Parked(w) => Run(first.state, Parked(w), first.invoked)
      case Trapped(t) => Run(first.state, Trapped(t), first.invoked)
  }

  /** The value the `i`-th request returned is still the one the map holds after the later requests. */
  lemma KeepsEarlierValues<K(!new), V>(m1: SingletonMap<K, V>, m2: SingletonMap<K, V>, f: Factory<K, V>, i: nat, v: V, acc: seq<V>, values: seq<V>)
    requires WellShaped(m1) && WellShaped(m2) && Grows(m1, m2)
    requires i < |f.deps| && |acc| == i && ItemOf(m1, f.deps[i].key) == Value(v)
    requires |values| == |f.deps| && values[..i + 1] == acc + [v]
    requires forall j :: i + 1 <= j < |f.deps| ==> ItemOf(m2, f.deps[j].key) == Value(values[j])
    ensures values[..i] == acc
    ensures forall j :: i <= j < |f.deps| ==> ItemOf(m2, f.deps[j].key) == Value(values[j])
  {
    assert values[i] == (acc + [v])[i];
    assert values[..i] == values[..i + 1][..i];
  }
}

=== FILE: singleton_map_facts.dfy ===
/**
 * Consequences of the construction protocol for one caller: memoization, the
 * factory of an unrequested key running once, nested requests from inside a
 * factory, and values composed from the values of their dependencies.
 */
module SingletonMapFacts {
  import opened Wrappers
  import opened SingletonMaps

  /** A factory that makes no nested requests. */
  predicate IsLeaf<K, V>(f: Factory<K, V>) {
    |f.deps| == 0
  }

  /**
   * A constructed key is returned as is: the outcome does not depend on the
   * factory supplied (so no factory runs) and the map does not change.
   */
  lemma HitIgnoresFactory<K(!new), V>(m: SingletonMap<K, V>, k: K, f: Factory<K, V>, g: Factory<K, V>)
    requires Valid(m) && ItemOf(m, k).Value?
    ensures GetValue(m, k, f) == GetValue(m, k, g)
    ensures GetValue(m, k, f).state == m && GetValue(m, k, f).invoked == []
    ensures GetValue(m, k, f).outcome == Returned(ItemOf(m, k).value)
  {
  }

  /**
   * Memoization: once a request for `k` has returned `v`, every later request for
   * `k`, whatever its factory, returns the identical `v` and changes nothing.
   */
  lemma SecondRequestReturnsSameValue<K(!new), V>(m: SingletonMap<K, V>, k: K, f: Factory<K, V>, g: Factory<K, V>)
    requires Valid(m)
    ensures var first := GetValue(m, k, f);
      first.outcome.Returned? ==>
        GetValue(first.state, k, g) == Run(first.state, Returned(first.outcome.value), [])
  {
  }

  /**
   * The first request for an unrequested key with a factory that requests nothing
   * else: the factory runs exactly once, its result is stored in the key's own
   * bucket and returned, and no other entry of any bucket changes.
   */
  lemma FirstRequestRunsFactoryOnce<K(!new), V>(m: SingletonMap<K, V>, k: K, f: Factory<K, V>)
    requires Valid(m) && Index(m, k).Success? && ItemOf(m, k).Empty? && IsLeaf(f)
    ensures var r := GetValue(m, k, f); var i := Index(m, k).value;
      && r.outcome == Returned(f.build([]))
      && r.invoked == [k]
      && r.state.buckets == m.buckets[i := m.buckets[i][k := Value(f.build([]))]]
  {
    var i := Index(m, k).value;
    var a := Acquire(m, k).value;
    var deps := RunDeps(a.state, f, 0, []);
    assert deps == Run(a.state, Returned([]), []);
    assert Index(a.state, k) == Success(i);
    var v := f.build([]);
    var done := Finish(a.state, k, v);
    assert a.state.buckets == m.buckets[i := m.buckets[i][k := Initializing]];
    assert done.buckets == a.state.buckets[i := a.state.buckets[i][k := Value(v)]];
    assert a.state.buckets[i][k := Value(v)] == m.buckets[i][k := Value(v)];
  }

  /**
   * A factory for `a` that itself requests a different key `b` completes, even
   * when both keys share a bucket (as they must with a single bucket): `b` is
   * constructed first, then `a` from `b`'s value, and both factories run once.
   */
  lemma NestedRequestDoesNotBlock<K(!new), V>(m: SingletonMap<K, V>, a: K, b: K, g: Factory<K, V>, build: seq<V> -> V)
    requires Valid(m) && a != b
    requires Index(m, a).Success? && Index(m, b).Success?
    requires ItemOf(m, a).Empty? && ItemOf(m, b).Empty? && IsLeaf(g)
    ensures var r := GetValue(m, a, Factory([Request(b, g)], build));
      && r.outcome == Returned(build([g.build([])]))
      && ItemOf(r.state, b) == Value(g.build([]))
      && ItemOf(r.state, a) == Value(build([g.build([])]))
      && r.invoked == [a, b]
  {
    var f := Factory([Request(b, g)], build);
    var m1 := Acquire(m, a).value.state;
    assert ItemOf(m1, b).Empty? && Index(m1, b) == Index(m, b);
    FirstRequestRunsFactoryOnce(m1, b, g);
    var inner := GetValue(m1, b, g);
    var vb := g.build([]);
    var deps := RunDeps(m1, f, 0, []);
    DepsStep(m1, f, 0, []);
    assert deps == Run(inner.state, Returned([vb]), [b]);
    ClaimStep(m, a, f);
  }

  /** Unfolds a claimed request whose factory's requests all returned. */
  lemma ClaimStep<K(!new), V>(m: SingletonMap<K, V>, k: K, f: Factory<K, V>)
    requires Valid(m) && Index(m, k).Success? && ItemOf(m, k).Empty?
    ensures var m1 := Acquire(m, k).value.state; var deps := RunDeps(m1, f, 0, []);
      deps.outcome.Returned? ==>
        var v := f.build(deps.outcome.value);
        GetValue(m, k, f) == Run(Finish(deps.state, k, v), Returned(v), [k] + deps.invoked)
  {
  }

  /** Unfolds one request of a factory that returned. */
  lemma DepsStep<K(!new), V>(m: SingletonMap<K, V>, f: Factory<K, V>, i: nat, acc: seq<V>)
    requires Valid(m) && i < |f.deps| && |acc| == i
    ensures var first := GetValue(m, f.deps[i].key, f.deps[i].factory);
      first.outcome.Returned? ==>
        var rest := RunDeps(first.state, f, i + 1, acc + [first.outcome.value]);
        RunDeps(m, f, i, acc) == Run(rest.state, rest.outcome, first.invoked + rest.invoked)
  {
  }

  /** With one bucket every key that can be placed lands in bucket 0. */
  lemma SingleBucketSharesIndex<K(!new), V>(m: SingletonMap<K, V>, a: K, b: K)
    requires Valid(m) && m.bucketCount == 1
    requires Index(m, a).Success? && Index(m, b).Success?
    ensures Index(m, a) == Index(m, b) == Success(0)
  {
  }

  /**
   * While `a` is under construction by another caller, a request for `a` parks
   * without a change, and a request for a different unrequested key `b` (in any
   * bucket, the same one included), with a factory that makes no nested
   * requests, still completes and leaves `a` as it was.
   */
  lemma OtherKeyProceedsWhileInitializing<K(!new), V>(m: SingletonMap<K, V>, a: K, b: K, f: Factory<K, V>, g: Factory<K, V>)
    requires Valid(m) && a != b
    requires ItemOf(m, a).Initializing?
    requires Index(m, b).Success? && ItemOf(m, b).Empty? && IsLeaf(g)
    ensures GetValue(m, a, f) == Run(m, Parked(a), [])
    ensures var r := GetValue(m, b, g);
      && r.outcome == Returned(g.build([]))
      && ItemOf(r.state, b) == Value(g.build([]))
      && ItemOf(r.state, a) == Initializing
  {
    FirstRequestRunsFactoryOnce(m, b, g);
  }

  /**
   * A value constructed by a request is its factory's build applied to exactly
   * the values the map now holds for the keys the factory requested, in order:
   * the composite refers to the very instances those keys return.
   */
  lemma ComposedFromDependencies<K(!new), V>(m: SingletonMap<K, V>, k: K, f: Factory<K, V>)
    requires Valid(m) && ItemOf(m, k).Empty?
    ensures var r := GetValue(m, k, f);
      r.outcome.Returned? ==>
        exists values: seq<V> ::
          && |values| == |f.deps|
          && r.outcome.value == f.build(values)
          && forall j :: 0 <= j < |f.deps| ==> ItemOf(r.state, f.deps[j].key) == Value(values[j])
  {
    var r := GetValue(m, k, f);
    if r.outcome.Returned? {
      var m1 := Acquire(m, k).value.state;
      var deps := RunDeps(m1, f, 0, []);
      var values := deps.outcome.value;
      assert ItemOf(deps.state, k) == Initializing;
      forall j | 0 <= j < |f.deps|
        ensures ItemOf(r.state, f.deps[j].key) == Value(values[j])
      {
        assert ItemOf(deps.state, f.deps[j].key) == Value(values[j]);
        assert f.deps[j].key != k;
      }
      assert r.outcome.value == f.build(values);
    }
  }

  /**
   * A factory whose first request is for its own key never completes: the nested
   * request finds the key under construction and parks behind it, and the only
   * caller that could finish the key is the one parked. The key is left
   * `Initializing`.
   */
  lemma SelfRequestParks<K(!new), V>(m: SingletonMap<K, V>, k: K, f: Factory<K, V>)
    requires Valid(m) && Index(m, k).Success? && ItemOf(m, k).Empty?
    requires |f.deps| > 0 && f.deps[0].key == k
    ensures var r := GetValue(m, k, f);
      r.outcome == Parked(k) && ItemOf(r.state, k) == Initializing && r.invoked == [k]
  {
    var m1 := Acquire(m, k).value.state;
    assert GetValue(m1, k, f.deps[0].factory) == Run(m1, Parked(k), []);
    assert RunDeps(m1, f, 0, []) == Run(m1, Parked(k), []);
  }
}

=== FILE: swift_int.dfy ===
/**
 * The fragment of Swift's 64-bit `Int` arithmetic the singleton map relies on:
 * `abs`, which traps on `Int.min`, and `%`, which truncates toward zero.
 */
module SwiftInt {
  import opened Wrappers

  const INT_MIN: int := -0x8000_0000_0000_0000
  const INT_MAX: int := 0x7FFF_FFFF_FFFF_FFFF

  /** Swift's `Int`; the model assumes a 64-bit `Int`. */
  newtype Int64 = x: int | INT_MIN <= x <= INT_MAX

  /** A runtime trap: the process stops instead of returning. */
  datatype Trap =
    | ArithmeticOverflow   // `abs(Int.min)` has no representable result
    | PreconditionFailure  // a failed `precondition(...)`

  /** Swift's `abs` on `Int`: traps on `Int.min`, otherwise the magnitude. */
  function Abs(x: Int64): (r: Result<Int64, Trap>)
    ensures r.Failure? <==> x as int == INT_MIN
    ensures r.Failure? ==> r.error == ArithmeticOverflow
    ensures r.Success? ==> 0 <= r.value as int && (r.value as int == x as int || r.value as int == -(x as int))
  {
    if x as int == INT_MIN then Failure(ArithmeticOverflow)
    else if x < 0 then Success(-x)
    else Success(x)
  }

  /** Swift's `/` on `Int`: the quotient rounded toward zero. */
  function Quot(a: int, b: int): int
    requires b != 0
  {
    var q := (if a < 0 then -a else a) / (if b < 0 then -b else b);
    if (a < 0) == (b < 0) then q else -q
  }

  /**
   * Swift's `%`: the remainder that goes with the truncating quotient. It
   * completes the division law `a == (a / b) * b + a % b`, is smaller in
   * magnitude than the divisor, and never has the sign opposite to the dividend.
   */
  function Rem(a: int, b: int): (r: int)
    requires b != 0
    ensures a == Quot(a, b) * b + r
    ensures (if r < 0 then -r else r) < (if b < 0 then -b else b)
    ensures a >= 0 ==> r >= 0
    ensures a <= 0 ==> r <= 0
  {
    var ma, mb := (if a < 0 then -a else a), (if b < 0 then -b else b);
    var magnitude := ma % mb;
    var q := ma / mb;
    assert ma == q * mb + magnitude;
    assert if b < 0 then q * b == -(q * mb) else q * b == q * mb;
    if a < 0 then -magnitude else magnitude
  }

  /** On a non-negative dividend and a positive divisor the truncating remainder is a valid index. */
  lemma RemOfNonNegative(a: int, b: int)
    requires 0 <= a && 0 < b
    ensures 0 <= Rem(a, b) < b
    ensures Rem(a, b) == a % b
  {
  }

  /** On a negative dividend the truncating remainder is never positive, unlike Dafny's `%`. */
  lemma RemOfNegative(a: int, b: int)
    requires a < 0 && 0 < b
    ensures -b < Rem(a, b) <= 0
  {
  }
}

=== FILE: wrappers.dfy ===
/** Optional values and results used across the model. */
module Wrappers {

  /** An optional value, as Swift's `T?`. */
  datatype Option<+T> = None | Some(value: T) {

    /** The wrapped value, or `default` when there is none (Swift's `??`). */
    function GetOr(default: T): (r: T)
      ensures Some? ==> r == value
      ensures None? ==> r == default
    {
      match this
      case Some(v) => v
      case None => default
    }
  }

  /** Either a value or the reason it could not be produced. */
  datatype Result<+T, +E> = Success(value: T) | Failure(error: E)
}
